=== FILE: README.md ===
# V-See backend commands, modelled in Dafny

This project models the core of the Rust backend of V-See, a desktop image and
media browser. It covers three command groups.

- **The viewer window's navigation** (`Viewer`). The context is a list of paths
  and an index. `open_viewer_window` installs it and clamps the start index.
  `get_viewer_context` reads it back. `viewer_prev` and `viewer_next` move
  through the list with wrap-around and report the path on display and its file
  name.
- **File-system commands** (`FsErrors`, `Listing`, `Roots`, `DataUrl`, with
  `Paths` for path handling). `friendly_error` turns OS error texts into short
  messages. `list_directory` lists and sorts the children of a folder.
  `get_folder_roots` lists the accessible drive roots on Windows.
  `read_file_as_data_url` and `read_file_as_audio_url` turn a file into an
  RFC 2397 `data:` URL.
- **The debug log** (`Calendar`, `DebugLog`). `days_to_ymd` converts a day
  count into a Gregorian date. `format_timestamp` formats the timestamp.
  `debug_log` maps level names. `write_log_line` fixes the layout of a line.

`Arith` holds the facts about Euclidean division behind the wrap-around proofs. `Text` holds ASCII case folding, substring search, lexicographic order and
zero-padded decimals. `Results` holds `Option` and `Result`.

The file system, the clock and base64 are inputs to the model:

- whether a path is a directory, the outcome of reading a directory, and the
  metadata and contents of a file are parameters of each operation;
- seconds and milliseconds since the epoch are parameters, and so is the log
  directory;
- the base64 encoder is a function parameter.

Every command is a pure function of these inputs, except for five methods. Two of them loop and carry loop invariants: `get_folder_roots` walks the drive letters A to Z, and `days_to_ymd` walks the calendar month by month. `format_timestamp`, `write_log_line` and `debug_log` are methods because they call `days_to_ymd`.

## Model

| member | source | states |
|---|---|---|
| Viewer.Default | src-tauri/src/commands/viewer.rs:18-27 | The initial context is valid and holds no paths. |
| Viewer.Open | src-tauri/src/commands/viewer.rs:38-47 | The new list replaces the old one. A start index inside the list is kept, and any start index at or past the end is clamped to the last item. The result is always a valid context, including for an empty list. |
| Viewer.GetContext | src-tauri/src/commands/viewer.rs:64-69 | `get_viewer_context` returns exactly the current paths and index. Opening a viewer with that pair gives back the same context, so the snapshot loses nothing. |
| Viewer.StepBack | src-tauri/src/commands/viewer.rs:78-82 | Moving back from index 0 wraps to the last item; otherwise it decrements. The list is unchanged and validity is preserved. |
| Viewer.StepForward | src-tauri/src/commands/viewer.rs:99 | Moving forward from the last item wraps to 0; otherwise it increments. The list is unchanged and validity is preserved. |
| Viewer.Prev | src-tauri/src/commands/viewer.rs:71-90 | An empty list yields None and nothing else. Otherwise the context steps back and the result names the path now on display and its final component. |
| Viewer.Next | src-tauri/src/commands/viewer.rs:92-107 | An empty list yields None and nothing else. Otherwise the context steps forward and the result names the path now on display and its final component. |
| Viewer.NextThenPrev | src-tauri/src/commands/viewer.rs:78-82 | Stepping back undoes stepping forward on every valid context. |
| Viewer.PrevThenNext | src-tauri/src/commands/viewer.rs:99 | Stepping forward undoes stepping back on every valid context. |
| Viewer.NextTimesIsModulo | src-tauri/src/commands/viewer.rs:99 | After k steps forward the index is (index + k) mod n. |
| Viewer.PrevTimesIsModulo | src-tauri/src/commands/viewer.rs:78-82 | After k steps back the index is (index - k) mod n. |
| Viewer.NextFullCycle | src-tauri/src/commands/viewer.rs:92-107 | n steps forward through a list of n paths return to the starting context. |
| Viewer.PrevFullCycle | src-tauri/src/commands/viewer.rs:71-90 | n steps back through a list of n paths return to the starting context. |
| Paths.FileName | src-tauri/src/commands/viewer.rs:84-88 | The file name has no separator and is never `.` or `..`. The lemmas below pin its value. |
| Paths.FileNameOfName | src-tauri/src/commands/viewer.rs:84-88 | A bare ordinary name without a drive prefix is its own file name. |
| Paths.FileNameTrailingSeparator | src-tauri/src/commands/viewer.rs:84-88 | A trailing separator is ignored: `dir\name\` has the file name of `dir\name`. |
| Paths.FileNameOfParentRef | src-tauri/src/commands/viewer.rs:84-88 | A path ending in `..` has no final normal component and gets the empty name, as `unwrap_or("")` gives. |
| Paths.FileNameOfDriveRoot | src-tauri/src/commands/viewer.rs:84-88 | A bare drive `X:` or drive root `X:\` gets the empty name. |
| Paths.FileNameOfJoin | src-tauri/src/commands/fs.rs:76-82 | The file name of `dir` + separator + a normal name is that name. |
| Paths.Extension | src-tauri/src/commands/fs.rs:172 | The extension has no dot and no separator. |
| Paths.ExtensionWithoutDot | src-tauri/src/commands/fs.rs:172 | A file name without a dot has no extension. |
| Paths.DotfileHasNoExtension | src-tauri/src/commands/fs.rs:172 | A dotfile such as `.bashrc`, whose only dot leads the name, has no extension. |
| Paths.ExtensionOfJoin | src-tauri/src/commands/fs.rs:172 | The extension of `dir\stem.ext` is `ext`. |
| FsErrors.FriendlyError | src-tauri/src/commands/fs.rs:28-44 | The chain of `if`s equals the first-match reading of the four phrase groups in their order, with the original text as the fallback. |
| FsErrors.FriendlyErrorOutcome | src-tauri/src/commands/fs.rs:28-44 | A text that contains no phrase is returned unchanged. Otherwise the result is the message of the first group, in table order, one of whose phrases occurs in the lower-cased text. |
| FsErrors.FriendlyErrorIgnoresCase | src-tauri/src/commands/fs.rs:30 | Matching ignores case. Two texts with the same lower-case form get the same message when a phrase occurs, and are otherwise both returned unchanged. |
| FsErrors.EarlierRuleWins | src-tauri/src/commands/fs.rs:31-42 | A text containing both "not ready" and "access is denied" is reported as an unavailable drive. |
| Listing.Collect | src-tauri/src/commands/fs.rs:70-88 | Entry i is built from the i-th readable child in iteration order, with its path, final component and directory flag. There are as many entries as readable children. An entry occurs iff it comes from some readable child. |
| Listing.CollectInOrder | src-tauri/src/commands/fs.rs:70-88 | Entry i comes from the child at the i-th readable position, and the count of entries equals the count of readable positions. |
| Listing.ReadableIndicesExact | src-tauri/src/commands/fs.rs:70-75 | The positions of the readable children are strictly ascending and include every readable child, so `Collect` keeps order and multiplicity. |
| Listing.SortByName | src-tauri/src/commands/fs.rs:89 | The result is sorted by lower-cased name and is a permutation of the input. Entries with equal keys keep their relative order, so the sort is stable. |
| Listing.StableSortIsUnique | src-tauri/src/commands/fs.rs:89 | Any two sequences that are sorted by key and hold the same entries per key in the same order are equal. Any stable sort therefore agrees with the model's. |
| Listing.ListDirectory | src-tauri/src/commands/fs.rs:50-95 | `ok` holds iff the path is a directory and the listing succeeded. A non-directory gives "Path is not a directory.", and a failed listing gives its friendly error. On success the entries are the collected children sorted stably by lower-cased name. |
| Listing.ListedEntries | src-tauri/src/commands/fs.rs:70-88 | An entry is listed iff it comes from a child with readable metadata. |
| Listing.ListedName | src-tauri/src/commands/fs.rs:78-82 | A child at `dir\name` is listed under `name`. |
| Roots.GetFolderRoots | src-tauri/src/commands/fs.rs:101-124 | The result is always ok with entries and no error. Every entry is the root `X:\` of a letter that is a directory and can be read, named and pathed by that root. Every such letter from A to Z is included, in strictly increasing order. |
| DataUrl.ImageMime | src-tauri/src/commands/fs.rs:187-197 | An extension in the image table gets an `image/` type; any other gets `application/octet-stream`. |
| DataUrl.AudioMime | src-tauri/src/commands/fs.rs:216-227 | An extension in the audio table gets an `audio/` type; any other gets `application/octet-stream`. |
| DataUrl.FormatDataUrl | src-tauri/src/commands/fs.rs:199 | The URL is `data:`, then the media type, then `;base64`, then a comma, then the payload unchanged. Its length is the sum of the parts. |
| DataUrl.DataUrlRoundTrip | src-tauri/src/commands/fs.rs:198-199 | Parsing `data:<mime>;base64,<payload>` gives back the media type and the payload. |
| DataUrl.ReadFileAsDataUrl | src-tauri/src/commands/fs.rs:170-200 | It succeeds iff the extension is not heic, heif or pdf, the metadata is readable, the path is not a directory, the size is at most 8 MiB and the read succeeds. Each failure has its exact error: a refused extension's text, the metadata error, "File too large for preview" for every size over 8 MiB, and the read error passed through. A success parses back to the mime type and the encoded bytes. |
| DataUrl.ReadFileAsAudioUrl | src-tauri/src/commands/fs.rs:205-230 | It succeeds iff the metadata is readable, the path is not a directory, the size is at most 32 MiB and the read succeeds. Each failure has its exact error: the metadata error, the playback size text for every size over 32 MiB, and the read error passed through. A success parses back to the audio mime type and the encoded bytes. |
| DataUrl.RefusalPrecedesMetadata | src-tauri/src/commands/fs.rs:172-179 | A heic, heif or pdf file is refused whatever the file system says. |
| DataUrl.PreviewSizeBoundary | src-tauri/src/commands/fs.rs:162 | The preview cap is inclusive at 8388608 bytes. |
| DataUrl.AudioSizeBoundary | src-tauri/src/commands/fs.rs:165 | The playback cap is inclusive at 33554432 bytes. |
| DataUrl.DirectoriesRefused | src-tauri/src/commands/fs.rs:180-182 | A directory is refused by both readers, each with its own text. |
| DataUrl.UpperCaseHeicRefused | src-tauri/src/commands/fs.rs:172-175 | `...\IMG.HEIC` is refused like a lower-case `.heic`. |
| Calendar.MonthDays | src-tauri/src/commands/debug_log.rs:36-44 | Months 1-12 have 28 to 31 days. February has 29 iff the year is a leap year. |
| Calendar.MonthsFillYear | src-tauri/src/commands/debug_log.rs:36-44 | The twelve month lengths add up to the year's length, 365 or 366. |
| Calendar.DaysToYmd | src-tauri/src/commands/debug_log.rs:32-60 | The loop yields a valid date whose day number since 1970-01-01 is the input. |
| Calendar.DayNumberInjective | src-tauri/src/commands/debug_log.rs:32-60 | Distinct valid dates have distinct day numbers, so the date `days_to_ymd` returns is the only one. |
| Calendar.EpochIsDayZero | src-tauri/src/commands/debug_log.rs:33 | Day 0 is 1970-01-01. |
| Calendar.NextDateIsNextDay | src-tauri/src/commands/debug_log.rs:46-53 | The calendar successor of a valid date, rolling over months and years, is valid and has the next day number. |
| Calendar.ConsecutiveDays | src-tauri/src/commands/debug_log.rs:32-60 | The dates of days d and d+1 are related by the successor. |
| DebugLog.SplitTimeOfDay | src-tauri/src/commands/debug_log.rs:16-21 | Hour, minute and second are in range. With the day count they reconstruct the seconds since the epoch. |
| DebugLog.TimestampText | src-tauri/src/commands/debug_log.rs:24-28 | The timestamp is at least 23 characters, since the `{:0w}` fields never shrink. It ends with `.` and three characters that are all decimal digits and read back as the milliseconds, so the zero padding is stated and a space-padded field would not satisfy it. |
| DebugLog.TimestampRoundTrip | src-tauri/src/commands/debug_log.rs:24-28 | Up to year 9999 the timestamp is 23 characters long. A parser that accepts only all-digit fields at the fixed positions reads each of the seven fields back as the number written, so every field is zero-padded digits. |
| DebugLog.FormatTimestamp | src-tauri/src/commands/debug_log.rs:9-29 | The timestamp is the text of the calendar date of `secs / 86400`, followed by the clock split of `secs` and the milliseconds. |
| DebugLog.NormalizeLevel | src-tauri/src/commands/debug_log.rs:107-113 | A name in the alias table (log, info, warn, warning, error, debug) becomes its canonical form. Any other name is kept. |
| DebugLog.NormalizeLevelIdempotent | src-tauri/src/commands/debug_log.rs:107-113 | A known alias maps to one of INFO, WARN, ERROR and DEBUG. Normalising a normalised level changes nothing, because no canonical name is itself an alias. |
| DebugLog.WrittenLevelIdempotent | src-tauri/src/commands/debug_log.rs:90 | Normalising and upper-casing a level that was already written changes nothing. |
| DebugLog.UnknownLevelUpperCased | src-tauri/src/commands/debug_log.rs:107-113 | A name outside the table reaches the file upper-cased. |
| DebugLog.LogLine | src-tauri/src/commands/debug_log.rs:90 | The line holds the timestamp, ` [`, the upper-cased level, `] `, the message and a final newline, at these positions and nothing else. |
| DebugLog.LogLineRoundTrip | src-tauri/src/commands/debug_log.rs:90 | A line reads back as its timestamp, upper-cased level and message when the level contains no `]`. |
| DebugLog.WriteLogLine | src-tauri/src/commands/debug_log.rs:84-100 | It fails with "Could not determine log directory" iff there is no log directory. Otherwise the line is the timestamp of the clock reading, then ` [LEVEL] `, the message and a newline. |
| DebugLog.DebugLog | src-tauri/src/commands/debug_log.rs:105-117 | Like `write_log_line`, after the level has been normalised. |
| Text.ContainsIffOccurs | src-tauri/src/commands/fs.rs:31-40 | `str::contains` holds iff the phrase occurs at some position. |
| Text.ZeroPadRoundTrip | src-tauri/src/commands/debug_log.rs:24-25 | `{:0w}` formatting reads back as the number and is at least w digits wide. |
| Text.LexLeReflexive | src-tauri/src/commands/fs.rs:89 | String comparison, by code point as Rust's `cmp` on `str`, is reflexive. |
| Text.LexLeAntisymmetric | src-tauri/src/commands/fs.rs:89 | Two strings each no greater than the other are equal. |
| Text.LexLeTransitive | src-tauri/src/commands/fs.rs:89 | String comparison is transitive. |
| Text.LexLeTotal | src-tauri/src/commands/fs.rs:89 | Any two strings are comparable. With the three lemmas above, string comparison is a total order, and so is the sort key's. |

## Left out

- The real file system, clock and environment are inputs, as described above. They include `is_dir`, `read_dir`, `metadata`, `fs::read`, `SystemTime::now`, and `APPDATA`/`HOME` for the log directory.
- Base64 (`STANDARD.encode`) is a function parameter. The round trip is stated over its output, not over the encoding.
- The `Mutex` around the viewer context and its lock-poison error are left out. Each command maps an old context to a new one.
- Window creation and focusing in `open_viewer_window` is left out as UI side effects.
- `get_parent_path` in `fs.rs` is not part of this model.
- `get_debug_log_path`, `log_dir` and `log_path` are not part of this model. They only build a path from the environment.
- The non-Windows branch of `get_folder_roots` (the `HOME` folder) is left out.
- The I/O failures of `write_log_line` after the directory is known are left out: `create_dir_all`, `open`, `write_all` and `flush`. So is the `eprintln!` echo in `debug_log`.
- `help.rs`, `audio.rs`, `persistence.rs`, `video_thumb.rs`, `mod.rs` and `main.rs` are not part of this model.
- Listing.Collect: takes the children of a folder as a list that holds only successful reads. `read_dir(..).flatten()` silently drops entries the directory iterator reports as errors, and the model has no such entries to drop. Rust gives a name that is not valid Unicode the empty name through `to_str()` and `unwrap_or("")`, and lossily converts its path with `to_string_lossy`. Dafny strings hold only valid text, so the model does not represent those names.
- Text.Lower: models ASCII case folding only, because Rust's `to_lowercase` and `to_uppercase` are Unicode-aware and there is no Unicode table here. Non-ASCII names are compared and folded as given.
- Paths.FileName: treats `/` and `\` as separators and a drive letter as a prefix. It does not model UNC (`\\server\share`) or verbatim (`\\?\`) prefixes of `std::path`.
- Paths.Extension: follows `Path::extension` on the final component. It inherits the prefix simplifications of `FileName`.
- Listing.SortByName: is an insertion sort rather than Rust's merge sort. `StableSortIsUnique` shows that every stable sort yields the same sequence.
- Viewer.StepBack: requires the index to be at most the list length. For a larger index `viewer_prev` would panic indexing the list, and no command produces one.
- Calendar.DaysToYmd: requires `days + 1` to fit in a `u64`, as the counter `n` in `days_to_ymd` does. The year, month and day are unbounded naturals rather than `u64`.
- DebugLog.FormatTimestamp: takes the seconds as a `u64` value and the sub-second milliseconds as below 1000, as `Duration` guarantees. The fixed-width layout is proved only up to year 9999, where `{:04}` stops padding.
- The comment on `write_log_line` gives the layout as `YYYY-MM-DD HH:MM:SS [LEVEL] message`. The code also writes `.mmm` milliseconds, and the model follows the code.

=== FILE: arith.dfy ===
/** Facts about Euclidean division that the wrap-around proofs rest on,
    stated so that each proof needs only linear reasoning. */
module Arith {
  lemma MulAtLeastOnce(k: int, n: int)
    requires n > 0 && k >= 1
    ensures k * n >= n
  {
  }

  lemma Distribute(a: int, b: int, n: int)
    ensures a * n - b * n == (a - b) * n
  {
  }

  /** The remainder is the unique r in [0, n) with a == q * n + r. */
  lemma ModUnique(a: int, n: int, q: int, r: int)
    requires n > 0 && 0 <= r < n && a == q * n + r
    ensures a % n == r
  {
    var q' := a / n;
    var r' := a % n;
    assert a == q' * n + r';
    Distribute(q, q', n);
    if q > q' {
      MulAtLeastOnce(q - q', n);
    } else if q < q' {
      Distribute(q', q, n);
      MulAtLeastOnce(q' - q, n);
    }
  }

  /** Adding n does not change the remainder. */
  lemma ModShift(a: int, n: int)
    requires n > 0
    ensures (a + n) % n == a % n
  {
    var q := a / n;
    var r := a % n;
    assert a == q * n + r;
    Distribute(q + 1, q, n);
    ModUnique(a + n, n, q + 1, r);
  }
}

=== FILE: calendar.dfy ===
/** `days_to_ymd`: the proleptic Gregorian date of a count of days since
    1970-01-01, found by walking forward month by month. The reference is
    `DayNumber`, the count of days from 1970-01-01 to a date; the walk is
    shown to produce the one valid date with the given number. */
module Calendar {

  /** 2^64 - 1, the largest `u64`. */
  const U64Max: nat := 0xFFFF_FFFF_FFFF_FFFF

  datatype Date = Date(year: nat, month: nat, day: nat)

  /** The Gregorian rule: every fourth year, except centuries not divisible
      by 400. */
  predicate IsLeap(year: nat) {
    year % 4 == 0 && (year % 100 != 0 || year % 400 == 0)
  }

  /** The `month_days` table of `days_to_ymd`, 0 outside 1..12. */
  function MonthDays(year: nat, month: nat): (r: nat)
    ensures 1 <= month <= 12 ==> 28 <= r <= 31
    ensures month == 2 ==> (r == 29 <==> IsLeap(year))
  {
    match month
    case 1 | 3 | 5 | 7 | 8 | 10 | 12 => 31
    case 4 | 6 | 9 | 11 => 30
    case 2 => if IsLeap(year) then 29 else 28
    case _ => 0
  }

  predicate ValidDate(date: Date) {
    && date.year >= 1970
    && 1 <= date.month <= 12
    && 1 <= date.day <= MonthDays(date.year, date.month)
  }

  function YearDays(year: nat): (r: nat) {
    if IsLeap(year) then 366 else 365
  }

  /** Days in the full years from 1970 up to, not including, `year`. */
  function DaysBeforeYear(year: nat): (r: nat)
    requires year >= 1970
    decreases year
  {
    if year == 1970 then 0 else DaysBeforeYear(year - 1) + YearDays(year - 1)
  }

  /** Days in the full months of `year` before `month`. */
  function DaysBeforeMonth(year: nat, month: nat): (r: nat)
    requires 1 <= month <= 12
  {
    if month == 1 then 0 else DaysBeforeMonth(year, month - 1) + MonthDays(year, month - 1)
  }

  /** Days from 1970-01-01 to the date: full years, full months, then the
      days of the month before it. */
  function DayNumber(date: Date): (r: nat)
    requires ValidDate(date)
  {
    DaysBeforeYear(date.year) + DaysBeforeMonth(date.year, date.month) + date.day - 1
  }

  /** The twelve months fill the year exactly. */
  lemma MonthsFillYear(year: nat)
    ensures DaysBeforeMonth(year, 12) + MonthDays(year, 12) == YearDays(year)
  {
    var feb := MonthDays(year, 2);
    assert DaysBeforeMonth(year, 2) == 31;
    assert DaysBeforeMonth(year, 3) == 31 + feb;
    assert DaysBeforeMonth(year, 4) == DaysBeforeMonth(year, 3) + 31;
    assert DaysBeforeMonth(year, 5) == DaysBeforeMonth(year, 4) + 30;
    assert DaysBeforeMonth(year, 6) == 31 + feb + 31 + 30 + 31;
    assert DaysBeforeMonth(year, 7) == DaysBeforeMonth(year, 6) + 30;
    assert DaysBeforeMonth(year, 8) == DaysBeforeMonth(year, 7) + 31;
    assert DaysBeforeMonth(year, 9) == 31 + feb + 31 + 30 + 31 + 30 + 31 + 31;
    assert DaysBeforeMonth(year, 10) == DaysBeforeMonth(year, 9) + 30;
    assert DaysBeforeMonth(year, 11) == DaysBeforeMonth(year, 10) + 31;
    assert DaysBeforeMonth(year, 12) == 31 + feb + 31 + 30 + 31 + 30 + 31 + 31 + 30 + 31 + 30;
  }

  /** `days_to_ymd`, month by month. `n` starts one above the day count; each full
      month is subtracted until what is left falls inside the current month. */
  method DaysToYmd(days: nat) returns (y: nat, m: nat, d: nat)
    requires days < U64Max
    ensures ValidDate(Date(y, m, d))
    ensures DayNumber(Date(y, m, d)) == days
  {
    y, m, d := 1970, 1, 1;
    var n: nat := days + 1;
    while n > 0
      invariant y >= 1970 && 1 <= m <= 12
      invariant n > 0 ==> DaysBeforeYear(y) + DaysBeforeMonth(y, m) + n == days + 1
      invariant n == 0 ==> ValidDate(Date(y, m, d)) && DayNumber(Date(y, m, d)) == days
      decreases n
    {
      var dim := MonthDays(y, m);
      if n > dim {
        n := n - dim;
        m := m + 1;
        if m > 12 {
          MonthsFillYear(y);
          m := 1;
          y := y + 1;
        }
      } else {
        d := n;
        n := 0;
      }
    }
  }

  lemma {:induction false} DaysBeforeMonthMonotone(year: nat, a: nat, b: nat)
    requires 1 <= a <= b <= 12
    ensures DaysBeforeMonth(year, a) + (if a < b then MonthDays(year, a) else 0) <= DaysBeforeMonth(year, b)
    decreases b
  {
    if a < b {
      if a < b - 1 {
        DaysBeforeMonthMonotone(year, a, b - 1);
      }
    }
  }

  lemma {:induction false} DaysBeforeYearMonotone(a: nat, b: nat)
    requires 1970 <= a < b
    ensures DaysBeforeYear(a) + YearDays(a) <= DaysBeforeYear(b)
    decreases b
  {
    if a < b - 1 {
      DaysBeforeYearMonotone(a, b - 1);
    }
  }

  /** A valid date's number lies inside its month and inside its year. */
  lemma DayNumberBounds(date: Date)
    requires ValidDate(date)
    ensures DaysBeforeYear(date.year) + DaysBeforeMonth(date.year, date.month) <= DayNumber(date)
    ensures DayNumber(date) < DaysBeforeYear(date.year) + DaysBeforeMonth(date.year, date.month)
                              + MonthDays(date.year, date.month)
    ensures DayNumber(date) < DaysBeforeYear(date.year) + YearDays(date.year)
  {
    MonthsFillYear(date.year);
    DaysBeforeMonthMonotone(date.year, date.month, 12);
  }

  /** Distinct valid dates have distinct numbers: `DaysToYmd` can only
      return the one date whose number is its argument. */
  lemma DayNumberInjective(a: Date, b: Date)
    requires ValidDate(a) && ValidDate(b) && DayNumber(a) == DayNumber(b)
    ensures a == b
  {
    DayNumberBounds(a);
    DayNumberBounds(b);
    if a.year < b.year {
      DaysBeforeYearMonotone(a.year, b.year);
    } else if b.year < a.year {
      DaysBeforeYearMonotone(b.year, a.year);
    } else if a.month < b.month {
      DaysBeforeMonthMonotone(a.year, a.month, b.month);
    } else if b.month < a.month {
      DaysBeforeMonthMonotone(a.year, b.month, a.month);
    }
  }

  /** Day 0 is the first of January 1970. */
  lemma EpochIsDayZero(date: Date)
    requires ValidDate(date) && DayNumber(date) == 0
    ensures date == Date(1970, 1, 1)
  {
    DayNumberInjective(date, Date(1970, 1, 1));
  }

  /** The calendar day after a valid date. */
  function NextDate(date: Date): Date {
    if date.day < MonthDays(date.year, date.month) then date.(day := date.day + 1)
    else if date.month < 12 then Date(date.year, date.month + 1, 1)
    else Date(date.year + 1, 1, 1)
  }

  /** The next calendar day is valid and numbered one higher. */
  lemma NextDateIsNextDay(date: Date)
    requires ValidDate(date)
    ensures ValidDate(NextDate(date))
    ensures DayNumber(NextDate(date)) == DayNumber(date) + 1
  {
    if date.day == MonthDays(date.year, date.month) && date.month == 12 {
      MonthsFillYear(date.year);
    }
  }

  /** Consecutive day counts are consecutive calendar days. */
  lemma ConsecutiveDays(a: Date, b: Date)
    requires ValidDate(a) && ValidDate(b) && DayNumber(b) == DayNumber(a) + 1
    ensures b == NextDate(a)
  {
    NextDateIsNextDay(a);
    DayNumberInjective(b, NextDate(a));
  }
}

=== FILE: data_url.dfy ===
/** The data-URL readers: `read_file_as_data_url` (image preview, at most
    8 MiB, HEIC/HEIF and PDF refused) and `read_file_as_audio_url` (playback,
    at most 32 MiB). The file system is an input (the metadata lookup and the
    read, each with the OS error text on failure) and so is the base64
    encoder, a function of the bytes. The result follows the data URL syntax
    of section 2 of RFC 2397: `data:<mediatype>;base64,<data>`. */
module DataUrl {
  import opened Results
  import opened Text
  import Paths

  newtype byte = x: int | 0 <= x < 256

  /** The two facts the readers take from `std::fs::metadata`. */
  datatype Metadata = Metadata(isDir: bool, len: nat)

  const MaxDataUrlSize: nat := 8 * 1024 * 1024
  const MaxAudioDataUrlSize: nat := 32 * 1024 * 1024

  const OctetStream := "application/octet-stream"

  const HeicUnsupported := "HEIC/HEIF is not supported"
  const PdfUnsupported := "PDF cannot be displayed"
  const ImageIsDirectory := "Path is a directory"
  const ImageTooLarge := "File too large for preview"
  const AudioIsDirectory := "Path is a directory."
  const AudioTooLarge := "File too large for playback (max 32MB)."

  const ImageExtensions: set<string> := {"jpg", "jpeg", "png", "gif", "webp", "bmp", "tiff", "tif", "ico", "svg"}
  const AudioExtensions: set<string> := {"mp3", "wav", "ogg", "m4a", "aac", "flac", "wma", "opus", "webm"}

  /** A media type usable before `;base64,`: no `,` (which ends the header)
      and no `;` (which starts a parameter). */
  predicate IsPlainMediaType(m: string) {
    |m| > 0 && ',' !in m && ';' !in m
  }

  /** The image MIME table; anything else is an octet stream. */
  function ImageMime(ext: string): (mime: string)
    ensures mime != OctetStream <==> ext in ImageExtensions
    ensures mime != OctetStream ==> IsPrefix("image/", mime)
    ensures IsPlainMediaType(mime)
  {
    match ext
    case "jpg" => "image/jpeg"
    case "jpeg" => "image/jpeg"
    case "png" => "image/png"
    case "gif" => "image/gif"
    case "webp" => "image/webp"
    case "bmp" => "image/bmp"
    case "tiff" => "image/tiff"
    case "tif" => "image/tiff"
    case "ico" => "image/x-icon"
    case "svg" => "image/svg+xml"
    case _ => OctetStream
  }

  /** The audio MIME table; anything else is an octet stream. */
  function AudioMime(ext: string): (mime: string)
    ensures mime != OctetStream <==> ext in AudioExtensions
    ensures mime != OctetStream ==> IsPrefix("audio/", mime)
    ensures IsPlainMediaType(mime)
  {
    match ext
    case "mp3" => "audio/mpeg"
    case "wav" => "audio/wav"
    case "ogg" => "audio/ogg"
    case "m4a" => "audio/mp4"
    case "aac" => "audio/aac"
    case "flac" => "audio/flac"
    case "wma" => "audio/x-ms-wma"
    case "opus" => "audio/opus"
    case "webm" => "audio/webm"
    case _ => OctetStream
  }

  /** `format!("data:{};base64,{}", mime, b64)`: the `data:` scheme, the
      media type with the `;base64` marker, a comma, then the payload
      untouched. */
  function FormatDataUrl(mime: string, payload: string): (r: string)
    ensures |r| == |mime| + |payload| + 13 && IsPrefix("data:", r)
    ensures r[5..5 + |mime|] == mime && r[5 + |mime|..12 + |mime|] == ";base64"
    ensures r[12 + |mime|] == ','
    ensures r[13 + |mime|..] == payload
  {
    "data:" + mime + ";base64," + payload
  }

  /** The parts of a data URL: the media type, whether `;base64` was given,
      and the data after the first comma. */
  datatype DataUrlParts = DataUrlParts(mediaType: string, base64: bool, data: string)

  function IndexOf(s: string, c: char): (r: Option<nat>)
    ensures r.Some? ==> r.value < |s| && s[r.value] == c && c !in s[..r.value]
    ensures r.None? ==> c !in s
  {
    if |s| == 0 then None
    else if s[0] == c then Some(0)
    else
      match IndexOf(s[1..], c)
      case None => None
      case Some(i) =>
        assert s[..i + 1] == [s[0]] + s[1..][..i];
        Some(i + 1)
  }

  /** Splits a URL by the grammar of section 2 of RFC 2397; `None` when it
      does not start with `data:` or has no comma. */
  function ParseDataUrl(url: string): Option<DataUrlParts> {
    if !IsPrefix("data:", url) then None
    else
      var rest := url[5..];
      match IndexOf(rest, ',')
      case None => None
      case Some(i) =>
        var header := rest[..i];
        var data := rest[i + 1..];
        if |header| >= 7 && header[|header| - 7..] == ";base64" then
          Some(DataUrlParts(header[..|header| - 7], true, data))
        else
          Some(DataUrlParts(header, false, data))
  }

  /** Formatting then parsing gives back the media type and the payload,
      whatever the payload holds. */
  lemma DataUrlRoundTrip(mime: string, payload: string)
    requires IsPlainMediaType(mime)
    ensures ParseDataUrl(FormatDataUrl(mime, payload)) == Some(DataUrlParts(mime, true, payload))
  {
    var url := FormatDataUrl(mime, payload);
    var rest := url[5..];
    assert rest == mime + ";base64," + payload;
    var i := |mime| + 7;
    assert rest[i] == ',';
    assert rest[..i] == mime + ";base64";
    assert ',' !in rest[..i];
    var j := IndexOf(rest, ',');
    assert j == Some(i);
    assert rest[i + 1..] == payload;
  }

  /** Rust's `Path::extension`, lower-cased. */
  function LowerExtension(path: string): string {
    Lower(Paths.Extension(path))
  }

  predicate PreviewRefused(ext: string) {
    ext == "heic" || ext == "heif" || ext == "pdf"
  }

  /** `read_file_as_data_url` over the abstract file system. */
  function ReadFileAsDataUrl(path: string, meta: Result<Metadata, string>, bytes: Result<seq<byte>, string>,
                             encode: seq<byte> -> string): (r: Result<string, string>)
    ensures r.Success? <==>
      && !PreviewRefused(LowerExtension(path))
      && meta.Success? && !meta.value.isDir && meta.value.len <= MaxDataUrlSize
      && bytes.Success?
    ensures r.Success? ==>
      ParseDataUrl(r.value) == Some(DataUrlParts(ImageMime(LowerExtension(path)), true, encode(bytes.value)))
    ensures LowerExtension(path) in {"heic", "heif"} ==> r == Failure(HeicUnsupported)
    ensures LowerExtension(path) == "pdf" ==> r == Failure(PdfUnsupported)
    ensures !PreviewRefused(LowerExtension(path)) && meta.Failure? ==> r == Failure(meta.error)
    ensures (!PreviewRefused(LowerExtension(path)) && meta.Success? && !meta.value.isDir
             && meta.value.len > MaxDataUrlSize) ==> r == Failure(ImageTooLarge)
    ensures (!PreviewRefused(LowerExtension(path)) && meta.Success? && !meta.value.isDir
             && meta.value.len <= MaxDataUrlSize && bytes.Failure?) ==> r == Failure(bytes.error)
  {
    var ext := LowerExtension(path);
    if ext == "heic" || ext == "heif" then Failure(HeicUnsupported)
    else if ext == "pdf" then Failure(PdfUnsupported)
    else if meta.Failure? then Failure(meta.error)
    else if meta.value.isDir then Failure(ImageIsDirectory)
    else if meta.value.len > MaxDataUrlSize then Failure(ImageTooLarge)
    else if bytes.Failure? then Failure(bytes.error)
    else
      var mime := ImageMime(ext);
      DataUrlRoundTrip(mime, encode(bytes.value));
      Success(FormatDataUrl(mime, encode(bytes.value)))
  }

  /** `read_file_as_audio_url` over the abstract file system: no extension is
      refused, and the size cap is 32 MiB. */
  function ReadFileAsAudioUrl(path: string, meta: Result<Metadata, string>, bytes: Result<seq<byte>, string>,
                              encode: seq<byte> -> string): (r: Result<string, string>)
    ensures r.Success? <==>
      && meta.Success? && !meta.value.isDir && meta.value.len <= MaxAudioDataUrlSize
      && bytes.Success?
    ensures r.Success? ==>
      ParseDataUrl(r.value) == Some(DataUrlParts(AudioMime(LowerExtension(path)), true, encode(bytes.value)))
    ensures meta.Failure? ==> r == Failure(meta.error)
    ensures meta.Success? && !meta.value.isDir && meta.value.len > MaxAudioDataUrlSize ==> r == Failure(AudioTooLarge)
    ensures meta.Success? && !meta.value.isDir && meta.value.len <= MaxAudioDataUrlSize && bytes.Failure? ==>
      r == Failure(bytes.error)
  {
    var ext := LowerExtension(path);
    if meta.Failure? then Failure(meta.error)
    else if meta.value.isDir then Failure(AudioIsDirectory)
    else if meta.value.len > MaxAudioDataUrlSize then Failure(AudioTooLarge)
    else if bytes.Failure? then Failure(bytes.error)
    else
      var mime := AudioMime(ext);
      DataUrlRoundTrip(mime, encode(bytes.value));
      Success(FormatDataUrl(mime, encode(bytes.value)))
  }

  /** A refused extension is decided before the file system is consulted:
      the outcome does not depend on the metadata or the contents. */
  lemma RefusalPrecedesMetadata(path: string, m1: Result<Metadata, string>, m2: Result<Metadata, string>,
                                b1: Result<seq<byte>, string>, b2: Result<seq<byte>, string>,
                                encode: seq<byte> -> string)
    requires PreviewRefused(LowerExtension(path))
    ensures ReadFileAsDataUrl(path, m1, b1, encode) == ReadFileAsDataUrl(path, m2, b2, encode)
    ensures ReadFileAsDataUrl(path, m1, b1, encode).Failure?
  {
  }

  /** The preview cap is inclusive: exactly 8 MiB is accepted, one byte more
      is refused as too large. */
  lemma PreviewSizeBoundary(path: string, b: seq<byte>, encode: seq<byte> -> string)
    requires !PreviewRefused(LowerExtension(path))
    ensures ReadFileAsDataUrl(path, Success(Metadata(false, 8388608)), Success(b), encode).Success?
    ensures ReadFileAsDataUrl(path, Success(Metadata(false, 8388609)), Success(b), encode) == Failure(ImageTooLarge)
  {
  }

  /** The playback cap is inclusive: exactly 32 MiB is accepted, one byte
      more is refused as too large. */
  lemma AudioSizeBoundary(path: string, b: seq<byte>, encode: seq<byte> -> string)
    ensures ReadFileAsAudioUrl(path, Success(Metadata(false, 33554432)), Success(b), encode).Success?
    ensures ReadFileAsAudioUrl(path, Success(Metadata(false, 33554433)), Success(b), encode) == Failure(AudioTooLarge)
  {
  }

  /** Directories are refused by both readers, each with its own text. */
  lemma DirectoriesRefused(path: string, len: nat, b: Result<seq<byte>, string>, encode: seq<byte> -> string)
    ensures !PreviewRefused(LowerExtension(path)) ==>
      ReadFileAsDataUrl(path, Success(Metadata(true, len)), b, encode) == Failure(ImageIsDirectory)
    ensures ReadFileAsAudioUrl(path, Success(Metadata(true, len)), b, encode) == Failure(AudioIsDirectory)
  {
  }

  /** The extension is compared after lower-casing: `IMG.HEIC` is refused
      like `img.heic`. */
  lemma UpperCaseHeicRefused(dir: string, m: Result<Metadata, string>, b: Result<seq<byte>, string>,
                             encode: seq<byte> -> string)
    ensures ReadFileAsDataUrl(dir + "\\IMG.HEIC", m, b, encode) == Failure(HeicUnsupported)
  {
    HeicExtension(dir);
  }

  lemma HeicExtension(dir: string)
    ensures LowerExtension(dir + "\\IMG.HEIC") == "heic"
  {
    HeicNameIsNormal();
    HeicPathSpelling(dir);
    Paths.ExtensionOfJoin(dir, '\\', "IMG", "HEIC");
    HeicLowered();
  }

  lemma HeicNameIsNormal()
    ensures Paths.IsNormalName("IMG" + "." + "HEIC")
  {
    var name := "IMG" + "." + "HEIC";
    assert name[0] == 'I' && |name| == 8;
  }

  lemma HeicPathSpelling(dir: string)
    ensures dir + ['\\'] + "IMG" + "." + "HEIC" == dir + "\\IMG.HEIC"
  {
  }

  lemma HeicLowered()
    ensures Lower("HEIC") == "heic"
  {
  }
}

=== FILE: debug_log.dfy ===
/** The debug log's formatting: the UTC timestamp `YYYY-MM-DD HH:MM:SS.mmm`
    built from seconds and milliseconds since the Unix epoch, the level names
    the frontend sends folded onto four canonical ones, and the line
    `<timestamp> [<LEVEL>] <message>` ending in a newline. The clock is an
    input; the file the line is appended to is not modelled. */
module DebugLog {
  import opened Results
  import opened Text
  import Calendar

  const SecsPerDay: nat := 86400

  datatype TimeOfDay = TimeOfDay(hour: nat, minute: nat, second: nat)

  /** The clock time within the day of `secs` seconds since the epoch. */
  function SplitTimeOfDay(secs: nat): (t: TimeOfDay)
    ensures t.hour < 24 && t.minute < 60 && t.second < 60
    ensures t.hour * 3600 + t.minute * 60 + t.second == secs % SecsPerDay
    ensures (secs / SecsPerDay) * SecsPerDay + t.hour * 3600 + t.minute * 60 + t.second == secs
  {
    var timeSecs := secs % SecsPerDay;
    var hour := timeSecs / 3600;
    var minute := (timeSecs % 3600) / 60;
    var second := timeSecs % 60;
    TimeSplitFacts(timeSecs);
    TimeOfDay(hour, minute, second)
  }

  lemma TimeSplitFacts(t: nat)
    requires t < 86400
    ensures t / 3600 < 24 && (t % 3600) / 60 < 60 && t % 60 < 60
    ensures (t / 3600) * 3600 + ((t % 3600) / 60) * 60 + t % 60 == t
  {
    var h := t / 3600;
    var r := t % 3600;
    assert t == h * 3600 + r;
    var mi := r / 60;
    var s := r % 60;
    assert r == mi * 60 + s;
    assert t % 60 == s by {
      assert t == (h * 60 + mi) * 60 + s;
    }
  }

  /** The date half, `YYYY-MM-DD`. */
  function DateText(date: Calendar.Date): string {
    ZeroPad(date.year, 4) + "-" + ZeroPad(date.month, 2) + "-" + ZeroPad(date.day, 2)
  }

  /** The clock half, `HH:MM:SS`. */
  function ClockText(time: TimeOfDay): string {
    ZeroPad(time.hour, 2) + ":" + ZeroPad(time.minute, 2) + ":" + ZeroPad(time.second, 2)
  }

  /** `format!("{:04}-{:02}-{:02} {:02}:{:02}:{:02}.{:03}", ...)`. */
  function TimestampText(date: Calendar.Date, time: TimeOfDay, millis: nat): (r: string)
    ensures |r| >= 23
    ensures millis < 1000 ==> r[|r| - 4] == '.' && AllDigits(r[|r| - 3..]) && ParseDecimal(r[|r| - 3..]) == millis
  {
    ZeroPadRoundTrip(date.year, 4);
    ZeroPadRoundTrip(date.month, 2);
    ZeroPadRoundTrip(date.day, 2);
    ZeroPadRoundTrip(time.hour, 2);
    ZeroPadRoundTrip(time.minute, 2);
    ZeroPadRoundTrip(time.second, 2);
    ZeroPadRoundTrip(millis, 3);
    if millis < 1000 then
      ZeroPadLength(millis, 3);
      var r := DateText(date) + " " + ClockText(time) + "." + ZeroPad(millis, 3);
      assert r[|r| - 3..] == ZeroPad(millis, 3);
      r
    else
      DateText(date) + " " + ClockText(time) + "." + ZeroPad(millis, 3)
  }

  /** The fields of a 23-character timestamp, read back by position. */
  datatype Stamp = Stamp(year: nat, month: nat, day: nat, hour: nat, minute: nat, second: nat, millis: nat)

  /** Three digit fields of fixed widths `w1`, `w2` and the rest, with a
      one-character separator after the first two; anything else is refused. */
  function ParseFields(s: string, w1: nat, sep1: char, w2: nat, sep2: char): Option<(nat, nat, nat)> {
    if |s| < w1 + w2 + 2 || s[w1] != sep1 || s[w1 + 1 + w2] != sep2 then None
    else if !AllDigits(s[..w1]) || !AllDigits(s[w1 + 1..w1 + 1 + w2]) || !AllDigits(s[w1 + 2 + w2..]) then None
    else Some((ParseDecimal(s[..w1]), ParseDecimal(s[w1 + 1..w1 + 1 + w2]), ParseDecimal(s[w1 + 2 + w2..])))
  }

  function ParseTimestamp(ts: string): Option<Stamp> {
    if |ts| != 23 || ts[10] != ' ' || ts[19] != '.' || !AllDigits(ts[20..]) then None
    else
      match (ParseFields(ts[..10], 4, '-', 2, '-'), ParseFields(ts[11..19], 2, ':', 2, ':'))
      case (Some(d), Some(c)) => Some(Stamp(d.0, d.1, d.2, c.0, c.1, c.2, ParseDecimal(ts[20..])))
      case _ => None
  }

  /** Where the pieces of `a + [x] + b + [y] + c` lie. */
  lemma Pieces(a: string, x: char, b: string, y: char, c: string)
    ensures var t := a + [x] + b + [y] + c;
      |t| == |a| + |b| + |c| + 2 && t[..|a|] == a && t[|a|] == x
      && t[|a| + 1..|a| + 1 + |b|] == b && t[|a| + 1 + |b|] == y && t[|a| + 2 + |b|..] == c
  {
    var t := a + [x] + b + [y] + c;
    assert t == a + ([x] + b + [y] + c);
    assert t[|a| + 1..] == b + ([y] + c);
    assert t[|a| + 2 + |b|..] == c;
  }

  lemma PadFacts(n: nat, width: nat)
    requires 1 <= width && n < Pow10(width)
    ensures |ZeroPad(n, width)| == width && AllDigits(ZeroPad(n, width)) && ParseDecimal(ZeroPad(n, width)) == n
  {
    ZeroPadLength(n, width);
    ZeroPadRoundTrip(n, width);
  }

  /** Fields of the given widths are read back as the numbers written. */
  lemma FieldsRoundTrip(n1: nat, w1: nat, sep1: char, n2: nat, w2: nat, sep2: char, n3: nat, w3: nat)
    requires 1 <= w1 && 1 <= w2 && 1 <= w3
    requires n1 < Pow10(w1) && n2 < Pow10(w2) && n3 < Pow10(w3)
    ensures |ZeroPad(n1, w1) + [sep1] + ZeroPad(n2, w2) + [sep2] + ZeroPad(n3, w3)| == w1 + w2 + w3 + 2
    ensures ParseFields(ZeroPad(n1, w1) + [sep1] + ZeroPad(n2, w2) + [sep2] + ZeroPad(n3, w3), w1, sep1, w2, sep2)
      == Some((n1, n2, n3))
  {
    PadFacts(n1, w1);
    PadFacts(n2, w2);
    PadFacts(n3, w3);
    Pieces(ZeroPad(n1, w1), sep1, ZeroPad(n2, w2), sep2, ZeroPad(n3, w3));
  }

  /** Up to year 9999 the timestamp has the fixed 23-character layout and
      every field is read back as the number that was written. */
  lemma TimestampRoundTrip(date: Calendar.Date, time: TimeOfDay, millis: nat)
    requires Calendar.ValidDate(date) && date.year < 10000
    requires time.hour < 24 && time.minute < 60 && time.second < 60 && millis < 1000
    ensures |TimestampText(date, time, millis)| == 23
    ensures ParseTimestamp(TimestampText(date, time, millis))
      == Some(Stamp(date.year, date.month, date.day, time.hour, time.minute, time.second, millis))
  {
    FieldsRoundTrip(date.year, 4, '-', date.month, 2, '-', date.day, 2);
    FieldsRoundTrip(time.hour, 2, ':', time.minute, 2, ':', time.second, 2);
    PadFacts(millis, 3);
    Pieces(DateText(date), ' ', ClockText(time), '.', ZeroPad(millis, 3));
  }

  /** `format_timestamp` with the clock reading as input: the date part is
      the calendar date of the day count, the time part the split of the
      seconds within the day. */
  method FormatTimestamp(secs: nat, millis: nat) returns (ts: string)
    requires secs <= Calendar.U64Max && millis < 1000
    ensures exists date: Calendar.Date ::
              Calendar.ValidDate(date) && Calendar.DayNumber(date) == secs / SecsPerDay
              && ts == TimestampText(date, SplitTimeOfDay(secs), millis)
  {
    var y, m, d := Calendar.DaysToYmd(secs / SecsPerDay);
    ts := TimestampText(Calendar.Date(y, m, d), SplitTimeOfDay(secs), millis);
  }

  /* ---------- levels ---------- */

  /** The frontend's level names and their canonical spelling. */
  const LevelAliases: map<string, string> :=
    map["log" := "INFO", "info" := "INFO", "warn" := "WARN", "warning" := "WARN",
        "error" := "ERROR", "debug" := "DEBUG"]

  /** The `match` in `debug_log`: a known name becomes its canonical form,
      any other is kept as given. */
  function NormalizeLevel(level: string): (r: string)
    ensures level in LevelAliases ==> r == LevelAliases[level]
    ensures level !in LevelAliases ==> r == level
  {
    match level
    case "log" => "INFO"
    case "info" => "INFO"
    case "warn" => "WARN"
    case "warning" => "WARN"
    case "error" => "ERROR"
    case "debug" => "DEBUG"
    case _ => level
  }

  /** Normalising twice is normalising once: every canonical name is itself
      outside the alias table. */
  lemma NormalizeLevelIdempotent(level: string)
    ensures NormalizeLevel(NormalizeLevel(level)) == NormalizeLevel(level)
    ensures level in LevelAliases ==> NormalizeLevel(level) in {"INFO", "WARN", "ERROR", "DEBUG"}
  {
    if level in LevelAliases {
      FoldedIsNoAlias(NormalizeLevel(level));
    }
  }

  /** The level as it appears in the file: normalised, then upper-cased. */
  function WrittenLevel(level: string): string {
    Upper(NormalizeLevel(level))
  }

  /** Writing a level that was itself written changes nothing more: the
      canonical names are fixed points and upper-casing is idempotent. */
  lemma WrittenLevelIdempotent(level: string)
    ensures WrittenLevel(WrittenLevel(level)) == WrittenLevel(level)
  {
    var w := WrittenLevel(level);
    UpperIsFolded(NormalizeLevel(level));
    FoldedIsNoAlias(w);
    UpperIsFolded(w);
  }

  /** Every alias starts with a lower-case letter, so no upper-cased name is one. */
  lemma FoldedIsNoAlias(w: string)
    requires IsUpperFolded(w)
    ensures w !in LevelAliases
  {
    assert forall k :: k in LevelAliases ==> |k| > 0 && 'a' <= k[0] <= 'z';
  }

  /** Names outside the table reach the file upper-cased. */
  lemma UnknownLevelUpperCased(level: string)
    requires level !in LevelAliases
    ensures WrittenLevel(level) == Upper(level)
  {
  }

  /* ---------- lines ---------- */

  /** `format!("{} [{}] {}\n", ts, level.to_uppercase(), message)`. */
  function LogLine(ts: string, level: string, message: string): (r: string)
    ensures |r| == |ts| + |level| + |message| + 5
    ensures r[..|ts|] == ts && r[|ts|..|ts| + 2] == " ["
    ensures r[|ts| + 2..|ts| + 2 + |level|] == Upper(level)
    ensures r[|ts| + 2 + |level|..|ts| + 4 + |level|] == "] "
    ensures r[|ts| + 4 + |level|..|r| - 1] == message && r[|r| - 1] == '\n'
  {
    var r := ts + " [" + Upper(level) + "] " + message + "\n";
    assert r == ts + " [" + (Upper(level) + "] " + (message + "\n"));
    r
  }

  datatype LineFields = LineFields(timestamp: string, level: string, message: string)

  /** Reads a line back given the timestamp's length: the level runs from
      after ` [` up to the first `]`. */
  function ParseLogLine(line: string, tsLength: nat): Option<LineFields> {
    if |line| < tsLength + 2 || line[tsLength..tsLength + 2] != " [" then None
    else
      var rest := line[tsLength + 2..];
      match IndexOfBracket(rest)
      case None => None
      case Some(i) =>
        if i + 2 > |rest| || rest[i..i + 2] != "] " || |rest| < i + 3 || rest[|rest| - 1] != '\n' then None
        else Some(LineFields(line[..tsLength], rest[..i], rest[i + 2..|rest| - 1]))
  }

  function IndexOfBracket(s: string): (r: Option<nat>)
    ensures r.Some? ==> r.value < |s| && s[r.value] == ']' && ']' !in s[..r.value]
    ensures r.None? ==> ']' !in s
  {
    if |s| == 0 then None
    else if s[0] == ']' then Some(0)
    else
      match IndexOfBracket(s[1..])
      case None => None
      case Some(i) =>
        assert s[..i + 1] == [s[0]] + s[1..][..i];
        Some(i + 1)
  }

  lemma {:induction false} FirstBracket(p: string, q: string)
    requires ']' !in p
    ensures IndexOfBracket(p + "] " + q) == Some(|p|)
  {
    if |p| > 0 {
      assert (p + "] " + q)[1..] == p[1..] + "] " + q;
      FirstBracket(p[1..], q);
    }
  }

  /** A written line is read back into its timestamp, its upper-cased level
      and its message, as long as the level holds no `]`. */
  lemma LogLineRoundTrip(ts: string, level: string, message: string)
    requires ']' !in level
    ensures ParseLogLine(LogLine(ts, level, message), |ts|) == Some(LineFields(ts, Upper(level), message))
  {
    var up := Upper(level);
    UpperKeepsOthers(level, ']');
    var line := LogLine(ts, level, message);
    assert line == ts + " [" + (up + "] " + message + "\n");
    assert line[..|ts|] == ts;
    assert line[|ts|..|ts| + 2] == " [";
    var rest := line[|ts| + 2..];
    assert rest == up + "] " + (message + "\n");
    FirstBracket(up, message + "\n");
    assert rest[|up|..|up| + 2] == "] ";
    assert rest[|up| + 2..|rest| - 1] == message;
    assert rest[..|up|] == up;
  }

  const NoLogDirectory := "Could not determine log directory"

  /** `write_log_line` with the clock and the log directory as inputs: with no
      directory it fails before formatting anything; otherwise it yields the
      line it appends. */
  method WriteLogLine(level: string, message: string, logDir: Option<string>, secs: nat, millis: nat)
    returns (r: Result<string, string>)
    requires secs <= Calendar.U64Max && millis < 1000
    ensures logDir.None? <==> r.Failure?
    ensures r.Failure? ==> r.error == NoLogDirectory
    ensures r.Success? ==> exists date: Calendar.Date ::
              Calendar.ValidDate(date) && Calendar.DayNumber(date) == secs / SecsPerDay
              && r.value == LogLine(TimestampText(date, SplitTimeOfDay(secs), millis), level, message)
  {
    if logDir.None? {
      return Failure(NoLogDirectory);
    }
    var ts := FormatTimestamp(secs, millis);
    r := Success(LogLine(ts, level, message));
  }

  /** `debug_log`: normalise the level, then write the line. */
  method DebugLog(level: string, message: string, logDir: Option<string>, secs: nat, millis: nat)
    returns (r: Result<string, string>)
    requires secs <= Calendar.U64Max && millis < 1000
    ensures logDir.None? <==> r.Failure?
    ensures r.Failure? ==> r.error == NoLogDirectory
    ensures r.Success? ==> exists date: Calendar.Date ::
              Calendar.ValidDate(date) && Calendar.DayNumber(date) == secs / SecsPerDay
              && r.value == LogLine(TimestampText(date, SplitTimeOfDay(secs), millis), NormalizeLevel(level), message)
  {
    r := WriteLogLine(NormalizeLevel(level), message, logDir, secs, millis);
  }
}

=== FILE: fs_errors.dfy ===
/** `friendly_error`: the text of an OS error is matched, case-insensitively,
    against four groups of phrases tried in a fixed order; the first group
    that matches picks a short message for the folder tree, and a message
    that matches no group is passed on unchanged. */
module FsErrors {
  import opened Text

  const DriveUnavailable := "Drive unavailable or disconnected."
  const AccessDenied := "Access denied."
  const PathNotFound := "Path not found (drive may have been disconnected)."
  const NotFound := "Not found."

  /** A group of lower-case phrases and the message they select. */
  datatype ErrorRule = ErrorRule(phrases: seq<string>, message: string)

  /** The groups in the order they are tried. */
  const ErrorRules: seq<ErrorRule> := [
    ErrorRule(["not ready", "device is not ready"], DriveUnavailable),
    ErrorRule(["access is denied", "permission denied"], AccessDenied),
    ErrorRule(["path not found", "no such file", "the system cannot find"], PathNotFound),
    ErrorRule(["not found"], NotFound)
  ]

  predicate MatchesRule(lower: string, rule: ErrorRule) {
    exists p :: p in rule.phrases && Contains(lower, p)
  }

  /** Table-driven reading of the rules: the message of the first group with
      a phrase occurring in `lower`, or `fallback` when none does. */
  function FirstMatch(rules: seq<ErrorRule>, lower: string, fallback: string): string {
    if |rules| == 0 then fallback
    else if MatchesRule(lower, rules[0]) then rules[0].message
    else FirstMatch(rules[1..], lower, fallback)
  }

  /** `friendly_error`: a chain of `if`s over the lower-cased message. */
  function FriendlyError(msg: string): (r: string)
    ensures r == FirstMatch(ErrorRules, Lower(msg), msg)
  {
    var lower := Lower(msg);
    FirstMatchOfTable(lower, msg);
    if Contains(lower, "not ready") || Contains(lower, "device is not ready") then
      DriveUnavailable
    else if Contains(lower, "access is denied") || Contains(lower, "permission denied") then
      AccessDenied
    else if Contains(lower, "path not found") || Contains(lower, "no such file")
         || Contains(lower, "the system cannot find") then
      PathNotFound
    else if Contains(lower, "not found") then
      NotFound
    else
      msg
  }

  /** The table read group by group. */
  lemma FirstMatchOfTable(lower: string, fallback: string)
    ensures FirstMatch(ErrorRules, lower, fallback) ==
      if Contains(lower, "not ready") || Contains(lower, "device is not ready") then DriveUnavailable
      else if Contains(lower, "access is denied") || Contains(lower, "permission denied") then AccessDenied
      else if Contains(lower, "path not found") || Contains(lower, "no such file")
           || Contains(lower, "the system cannot find") then PathNotFound
      else if Contains(lower, "not found") then NotFound
      else fallback
  {
    var rules := ErrorRules;
    assert MatchesRule(lower, rules[0]) <==> Contains(lower, "not ready") || Contains(lower, "device is not ready") by {
      assert rules[0].phrases[0] == "not ready" && rules[0].phrases[1] == "device is not ready";
    }
    assert MatchesRule(lower, rules[1]) <==> Contains(lower, "access is denied") || Contains(lower, "permission denied") by {
      assert rules[1].phrases[0] == "access is denied" && rules[1].phrases[1] == "permission denied";
    }
    assert MatchesRule(lower, rules[2]) <==> (Contains(lower, "path not found") || Contains(lower, "no such file")
      || Contains(lower, "the system cannot find")) by {
      assert rules[2].phrases[0] == "path not found" && rules[2].phrases[1] == "no such file";
      assert rules[2].phrases[2] == "the system cannot find";
    }
    assert MatchesRule(lower, rules[3]) <==> Contains(lower, "not found") by {
      assert rules[3].phrases[0] == "not found";
    }
    var r1 := rules[1..];
    var r2 := r1[1..];
    var r3 := r2[1..];
    assert r1[0] == rules[1] && r2[0] == rules[2] && r3[0] == rules[3] && |r3| == 1;
    assert FirstMatch(r3, lower, fallback) == if MatchesRule(lower, rules[3]) then NotFound else fallback;
    assert FirstMatch(r2, lower, fallback)
      == if MatchesRule(lower, rules[2]) then PathNotFound else FirstMatch(r3, lower, fallback);
    assert FirstMatch(r1, lower, fallback)
      == if MatchesRule(lower, rules[1]) then AccessDenied else FirstMatch(r2, lower, fallback);
  }

  predicate MatchesSomeRule(lower: string) {
    exists i :: 0 <= i < |ErrorRules| && MatchesRule(lower, ErrorRules[i])
  }

  /** The group that decides: it matches and no earlier group does. */
  predicate FirstMatching(rules: seq<ErrorRule>, lower: string, i: int) {
    0 <= i < |rules| && MatchesRule(lower, rules[i])
    && forall j :: 0 <= j < i ==> !MatchesRule(lower, rules[j])
  }

  lemma {:induction false} FirstMatchOutcome(rules: seq<ErrorRule>, lower: string, fallback: string)
    ensures (exists i :: 0 <= i < |rules| && MatchesRule(lower, rules[i])) ==>
      exists i :: FirstMatching(rules, lower, i) && FirstMatch(rules, lower, fallback) == rules[i].message
    ensures (forall i :: 0 <= i < |rules| ==> !MatchesRule(lower, rules[i])) ==>
      FirstMatch(rules, lower, fallback) == fallback
  {
    if |rules| > 0 && MatchesRule(lower, rules[0]) {
      assert FirstMatching(rules, lower, 0);
    } else if |rules| > 0 {
      FirstMatchOutcome(rules[1..], lower, fallback);
      if exists i :: 0 <= i < |rules| && MatchesRule(lower, rules[i]) {
        var i :| 0 <= i < |rules| && MatchesRule(lower, rules[i]);
        assert rules[1..][i - 1] == rules[i];
        var j :| FirstMatching(rules[1..], lower, j) && FirstMatch(rules[1..], lower, fallback) == rules[1..][j].message;
        assert rules[1..][j] == rules[j + 1];
        forall k | 0 <= k < j + 1
          ensures !MatchesRule(lower, rules[k])
        {
          if k > 0 {
            assert rules[1..][k - 1] == rules[k];
          }
        }
        assert FirstMatching(rules, lower, j + 1);
      }
      if forall i :: 0 <= i < |rules| ==> !MatchesRule(lower, rules[i]) {
        assert forall i :: 0 <= i < |rules[1..]| ==> rules[1..][i] == rules[i + 1];
      }
    }
  }

  /** A message none of whose phrases occurs is returned as it is; any other
      gets the short text of the first group with a phrase in it. */
  lemma FriendlyErrorOutcome(msg: string)
    ensures !MatchesSomeRule(Lower(msg)) ==> FriendlyError(msg) == msg
    ensures MatchesSomeRule(Lower(msg)) ==>
      exists i :: FirstMatching(ErrorRules, Lower(msg), i) && FriendlyError(msg) == ErrorRules[i].message
  {
    FirstMatchOutcome(ErrorRules, Lower(msg), msg);
  }

  lemma {:induction false} FirstMatchIgnoresFallback(rules: seq<ErrorRule>, lower: string, f1: string, f2: string)
    ensures (exists i :: 0 <= i < |rules| && MatchesRule(lower, rules[i])) ==>
      FirstMatch(rules, lower, f1) == FirstMatch(rules, lower, f2)
  {
    if |rules| > 0 && !MatchesRule(lower, rules[0]) {
      FirstMatchIgnoresFallback(rules[1..], lower, f1, f2);
      if exists i :: 0 <= i < |rules| && MatchesRule(lower, rules[i]) {
        var i :| 0 <= i < |rules| && MatchesRule(lower, rules[i]);
        assert rules[1..][i - 1] == rules[i];
      }
    }
  }

  /** Matching ignores letter case: two messages that differ only in case
      get the same short text, or are both passed through unchanged. */
  lemma FriendlyErrorIgnoresCase(a: string, b: string)
    requires Lower(a) == Lower(b)
    ensures MatchesSomeRule(Lower(a)) ==> FriendlyError(a) == FriendlyError(b)
    ensures !MatchesSomeRule(Lower(a)) ==> FriendlyError(a) == a && FriendlyError(b) == b
  {
    FirstMatchIgnoresFallback(ErrorRules, Lower(a), a, b);
    FriendlyErrorOutcome(a);
    FriendlyErrorOutcome(b);
  }

  /** The first group wins over the later ones: a message saying both "not
      ready" and "access is denied" is reported as an unavailable drive. */
  lemma EarlierRuleWins(msg: string)
    requires Contains(Lower(msg), "not ready") && Contains(Lower(msg), "access is denied")
    ensures FriendlyError(msg) == DriveUnavailable
  {
  }
}

=== FILE: listing.dfy ===
/** `list_directory`: the direct children of a folder as name/path/kind
    records, ordered by lower-cased name. The file system is an input: whether
    the path is a directory, and the outcome of reading it (its children, each
    with readable metadata or not, or the OS error text). */
module Listing {
  import opened Results
  import opened Text
  import Paths
  import FsErrors

  /** One child as handed to the folder tree. */
  datatype DirEntry = DirEntry(name: string, path: string, isDir: bool)

  /** What the command returns: entries on success, an error text otherwise. */
  datatype ListDirResult = ListDirResult(ok: bool, entries: Option<seq<DirEntry>>, error: Option<string>)

  /** A child as the directory iterator yields it: its full path and, when its
      metadata could be read, whether it is a directory. */
  datatype RawChild = RawChild(path: string, metadata: Option<bool>)

  const NotADirectory := "Path is not a directory."

  function EntryOf(c: RawChild): DirEntry
    requires c.metadata.Some?
  {
    DirEntry(Paths.FileName(c.path), c.path, c.metadata.value)
  }

  /** The positions, from `from` on, of the children whose metadata can be
      read, in ascending order (see `ReadableIndicesExact`). */
  function ReadableIndices(children: seq<RawChild>, from: nat): (r: seq<nat>)
    requires from <= |children|
    ensures forall i :: 0 <= i < |r| ==> from <= r[i] < |children| && children[r[i]].metadata.Some?
    decreases |children| - from
  {
    if from == |children| then []
    else (if children[from].metadata.Some? then [from] else []) + ReadableIndices(children, from + 1)
  }

  /** The positions are strictly ascending and miss no readable child. */
  lemma {:induction false} ReadableIndicesExact(children: seq<RawChild>, from: nat)
    requires from <= |children|
    ensures forall i, j :: 0 <= i < j < |ReadableIndices(children, from)| ==>
      ReadableIndices(children, from)[i] < ReadableIndices(children, from)[j]
    ensures forall k :: from <= k < |children| && children[k].metadata.Some? ==> k in ReadableIndices(children, from)
    decreases |children| - from
  {
    if from < |children| {
      ReadableIndicesExact(children, from + 1);
    }
  }

  /** The readable children, in iteration order. */
  function Readable(children: seq<RawChild>): (r: seq<RawChild>)
    ensures forall i :: 0 <= i < |r| ==> r[i].metadata.Some?
  {
    if |children| == 0 then []
    else (if children[0].metadata.Some? then [children[0]] else []) + Readable(children[1..])
  }

  /** The readable children from position k on are the children at the
      readable positions from k on, one for one. */
  lemma {:induction false} ReadableAt(children: seq<RawChild>, k: nat)
    requires k <= |children|
    ensures |Readable(children[k..])| == |ReadableIndices(children, k)|
    ensures forall i :: 0 <= i < |ReadableIndices(children, k)| ==>
      Readable(children[k..])[i] == children[ReadableIndices(children, k)[i]]
    decreases |children| - k
  {
    if k < |children| {
      ReadableAt(children, k + 1);
      assert children[k..][1..] == children[k + 1..];
      var tail := Readable(children[k + 1..]);
      var idx := ReadableIndices(children, k + 1);
      if children[k].metadata.Some? {
        assert Readable(children[k..]) == [children[k]] + tail;
        assert ReadableIndices(children, k) == [k] + idx;
      } else {
        assert Readable(children[k..]) == tail;
        assert ReadableIndices(children, k) == idx;
      }
    }
  }

  /** The loop over the children: those whose metadata cannot be read are
      skipped, the others become entries in iteration order. */
  function Collect(children: seq<RawChild>): (r: seq<DirEntry>)
    ensures |r| == |Readable(children)|
    ensures forall i :: 0 <= i < |r| ==> r[i] == EntryOf(Readable(children)[i])
    ensures forall e :: e in r <==> exists c :: c in children && c.metadata.Some? && e == EntryOf(c)
  {
    if |children| == 0 then []
    else
      var rest := Collect(children[1..]);
      assert forall c :: c in children[1..] ==> c in children;
      if children[0].metadata.Some? then [EntryOf(children[0])] + rest else rest
  }

  /** Entry i of the listing is built from the i-th readable child: the
      entries keep the iteration order and the multiplicity of the children. */
  lemma CollectInOrder(children: seq<RawChild>)
    ensures |Collect(children)| == |ReadableIndices(children, 0)|
    ensures forall i :: 0 <= i < |Collect(children)| ==>
      Collect(children)[i] == EntryOf(children[ReadableIndices(children, 0)[i]])
  {
    ReadableAt(children, 0);
    assert children[0..] == children;
  }

  /* ---------- the ordering ---------- */

  /** The sort key: the name, lower-cased. */
  function Key(e: DirEntry): string {
    Lower(e.name)
  }

  predicate KeyLe(a: DirEntry, b: DirEntry) {
    LexLe(Key(a), Key(b))
  }

  predicate SortedByName(s: seq<DirEntry>) {
    forall i, j :: 0 <= i < j < |s| ==> KeyLe(s[i], s[j])
  }

  /** The entries of s whose key is k, in their order in s. Two sequences
      with the same such subsequence for every key hold the same entries,
      and entries with equal keys appear in the same relative order. */
  function WithKey(s: seq<DirEntry>, k: string): (r: seq<DirEntry>)
    ensures forall e :: e in r ==> e in s && Key(e) == k
  {
    if |s| == 0 then [] else (if Key(s[0]) == k then [s[0]] else []) + WithKey(s[1..], k)
  }

  lemma WithKeyCons(x: DirEntry, t: seq<DirEntry>, k: string)
    ensures WithKey([x] + t, k) == (if Key(x) == k then [x] else []) + WithKey(t, k)
  {
    assert ([x] + t)[1..] == t;
  }

  /** Putting in front an entry no larger than every other keeps the order. */
  lemma SortedCons(x: DirEntry, t: seq<DirEntry>)
    requires SortedByName(t)
    requires forall j :: 0 <= j < |t| ==> KeyLe(x, t[j])
    ensures SortedByName([x] + t)
  {
    var r := [x] + t;
    forall i, j | 0 <= i < j < |r|
      ensures KeyLe(r[i], r[j])
    {
      if i > 0 {
        assert r[i] == t[i - 1] && r[j] == t[j - 1];
      } else {
        assert r[j] == t[j - 1];
      }
    }
  }

  lemma InsertFront(x: DirEntry, t: seq<DirEntry>)
    requires SortedByName(t) && |t| > 0 && KeyLe(x, t[0])
    ensures SortedByName([x] + t)
  {
    forall j | 0 <= j < |t|
      ensures KeyLe(x, t[j])
    {
      if j > 0 {
        LexLeTransitive(Key(x), Key(t[0]), Key(t[j]));
      }
    }
    SortedCons(x, t);
  }

  lemma InsertBehindSorted(x: DirEntry, t: seq<DirEntry>, rest: seq<DirEntry>)
    requires SortedByName(t) && |t| > 0 && !KeyLe(x, t[0])
    requires SortedByName(rest) && multiset(rest) == multiset(t[1..]) + multiset{x}
    ensures SortedByName([t[0]] + rest)
  {
    LexLeTotal(Key(x), Key(t[0]));
    forall j | 0 <= j < |rest|
      ensures KeyLe(t[0], rest[j])
    {
      assert rest[j] in multiset(rest);
      if rest[j] != x {
        assert rest[j] in multiset(t[1..]);
        var i :| 0 <= i < |t[1..]| && t[1..][i] == rest[j];
        assert t[i + 1] == rest[j];
      }
    }
    SortedCons(t[0], rest);
  }

  /** One key of `InsertBehindKeys`: x and t[0] have different keys, so at
      most one of them contributes to the entries with key k. */
  lemma InsertBehindKey(x: DirEntry, t: seq<DirEntry>, rest: seq<DirEntry>, k: string)
    requires |t| > 0 && Key(t[0]) != Key(x)
    requires WithKey(rest, k) == (if Key(x) == k then [x] else []) + WithKey(t[1..], k)
    ensures WithKey([t[0]] + rest, k) == (if Key(x) == k then [x] else []) + WithKey(t, k)
  {
    WithKeyCons(t[0], rest, k);
    assert t == [t[0]] + t[1..];
    WithKeyCons(t[0], t[1..], k);
    if Key(x) == k {
      assert WithKey([t[0]] + rest, k) == WithKey(rest, k);
      assert WithKey(t, k) == WithKey(t[1..], k);
    } else {
      assert WithKey(rest, k) == WithKey(t[1..], k);
    }
  }

  lemma InsertBehindKeys(x: DirEntry, t: seq<DirEntry>, rest: seq<DirEntry>)
    requires |t| > 0 && !KeyLe(x, t[0])
    requires forall k :: WithKey(rest, k) == (if Key(x) == k then [x] else []) + WithKey(t[1..], k)
    ensures forall k :: WithKey([t[0]] + rest, k) == (if Key(x) == k then [x] else []) + WithKey(t, k)
  {
    assert Key(t[0]) != Key(x) by {
      if Key(t[0]) == Key(x) {
        LexLeReflexive(Key(x));
      }
    }
    forall k
      ensures WithKey([t[0]] + rest, k) == (if Key(x) == k then [x] else []) + WithKey(t, k)
    {
      InsertBehindKey(x, t, rest, k);
    }
  }

  /** Stable insertion: x goes before the first element whose key is not
      smaller than its own. */
  function Insert(x: DirEntry, t: seq<DirEntry>): (r: seq<DirEntry>)
    requires SortedByName(t)
    ensures SortedByName(r)
    ensures multiset(r) == multiset(t) + multiset{x}
    ensures forall k :: WithKey(r, k) == (if Key(x) == k then [x] else []) + WithKey(t, k)
    decreases |t|
  {
    if |t| == 0 then [x]
    else if KeyLe(x, t[0]) then
      InsertFront(x, t);
      assert forall k :: WithKey([x] + t, k) == (if Key(x) == k then [x] else []) + WithKey(t, k) by {
        forall k {
          WithKeyCons(x, t, k);
        }
      }
      [x] + t
    else
      var rest := Insert(x, t[1..]);
      assert t == [t[0]] + t[1..];
      InsertBehindSorted(x, t, rest);
      InsertBehindKeys(x, t, rest);
      [t[0]] + rest
  }

  /** Stable sort of the entries by lower-cased name. */
  function SortByName(s: seq<DirEntry>): (r: seq<DirEntry>)
    ensures SortedByName(r)
    ensures multiset(r) == multiset(s)
    ensures forall k :: WithKey(r, k) == WithKey(s, k)
    decreases |s|
  {
    if |s| == 0 then []
    else
      assert s == [s[0]] + s[1..];
      assert forall k :: WithKey(s, k) == (if Key(s[0]) == k then [s[0]] else []) + WithKey(s[1..], k) by {
        forall k {
          WithKeyCons(s[0], s[1..], k);
        }
      }
      Insert(s[0], SortByName(s[1..]))
  }

  lemma WithKeyOfHead(s: seq<DirEntry>)
    requires |s| > 0
    ensures |WithKey(s, Key(s[0]))| > 0 && WithKey(s, Key(s[0]))[0] == s[0]
  {
    WithKeyCons(s[0], s[1..], Key(s[0]));
    assert s == [s[0]] + s[1..];
  }

  /** The first entry of a sorted sequence has the smallest key. */
  lemma HeadIsSmallest(s: seq<DirEntry>, x: DirEntry)
    requires SortedByName(s) && x in s
    ensures KeyLe(s[0], x)
  {
    var i :| 0 <= i < |s| && s[i] == x;
    if i == 0 {
      LexLeReflexive(Key(x));
    }
  }

  lemma SameHead(a: seq<DirEntry>, b: seq<DirEntry>)
    requires SortedByName(a) && SortedByName(b) && |a| > 0 && |b| > 0
    requires forall k :: WithKey(a, k) == WithKey(b, k)
    ensures a[0] == b[0]
  {
    var ka, kb := Key(a[0]), Key(b[0]);
    WithKeyOfHead(a);
    WithKeyOfHead(b);
    assert WithKey(b, ka) == WithKey(a, ka);
    assert WithKey(a, kb) == WithKey(b, kb);
    HeadIsSmallest(b, WithKey(b, ka)[0]);
    HeadIsSmallest(a, WithKey(a, kb)[0]);
    LexLeAntisymmetric(ka, kb);
  }

  lemma SameTail(a: seq<DirEntry>, b: seq<DirEntry>, k: string)
    requires |a| > 0 && |b| > 0 && a[0] == b[0]
    requires WithKey(a, k) == WithKey(b, k)
    ensures WithKey(a[1..], k) == WithKey(b[1..], k)
  {
    var h := if Key(a[0]) == k then [a[0]] else [];
    assert WithKey(a, k) == h + WithKey(a[1..], k);
    assert WithKey(b, k) == h + WithKey(b[1..], k);
    assert WithKey(a[1..], k) == WithKey(a, k)[|h|..];
    assert WithKey(b[1..], k) == WithKey(b, k)[|h|..];
  }

  /** There is only one stable ordering: two sorted sequences that agree on
      every key's subsequence are equal. So any stable sort, such as the
      merge sort of the Rust standard library, yields `SortByName`'s result. */
  lemma {:induction false} StableSortIsUnique(a: seq<DirEntry>, b: seq<DirEntry>)
    requires SortedByName(a) && SortedByName(b)
    requires forall k :: WithKey(a, k) == WithKey(b, k)
    ensures a == b
    decreases |a|
  {
    if |a| == 0 {
      if |b| > 0 {
        WithKeyOfHead(b);
      }
    } else if |b| == 0 {
      WithKeyOfHead(a);
    } else {
      SameHead(a, b);
      forall k
        ensures WithKey(a[1..], k) == WithKey(b[1..], k)
      {
        SameTail(a, b, k);
      }
      StableSortIsUnique(a[1..], b[1..]);
      assert a == [a[0]] + a[1..];
      assert b == [b[0]] + b[1..];
    }
  }

  /** `list_directory` over the abstract file system. */
  function ListDirectory(isDirectory: bool, listing: Result<seq<RawChild>, string>): (r: ListDirResult)
    ensures r.ok <==> isDirectory && listing.Success?
    ensures !r.ok ==> r.entries.None? && r.error.Some?
    ensures !isDirectory ==> r.error == Some(NotADirectory)
    ensures isDirectory && listing.Failure? ==> r.error == Some(FsErrors.FriendlyError(listing.error))
    ensures r.ok ==> r.error.None? && r.entries.Some?
    ensures r.ok ==> SortedByName(r.entries.value)
    ensures r.ok ==> multiset(r.entries.value) == multiset(Collect(listing.value))
    ensures r.ok ==> forall k :: WithKey(r.entries.value, k) == WithKey(Collect(listing.value), k)
  {
    if !isDirectory then
      ListDirResult(false, None, Some(NotADirectory))
    else
      match listing
      case Failure(e) => ListDirResult(false, None, Some(FsErrors.FriendlyError(e)))
      case Success(children) => ListDirResult(true, Some(SortByName(Collect(children))), None)
  }

  /** Every listed entry comes from a child with readable metadata, and every
      such child is listed, named by the last component of its path. */
  lemma ListedEntries(children: seq<RawChild>, e: DirEntry)
    ensures var r := ListDirectory(true, Success(children));
      e in r.entries.value <==> exists c :: c in children && c.metadata.Some? && e == EntryOf(c)
  {
    var r := ListDirectory(true, Success(children));
    assert e in r.entries.value <==> e in multiset(r.entries.value);
    assert e in Collect(children) <==> e in multiset(Collect(children));
  }

  /** A child at `dir\name` is listed under its own name. */
  lemma ListedName(dir: string, sep: char, name: string, isDir: bool)
    requires Paths.IsSeparator(sep) && Paths.IsNormalName(name)
    ensures EntryOf(RawChild(dir + [sep] + name, Some(isDir))).name == name
  {
    Paths.FileNameOfJoin(dir, sep, name);
  }
}

=== FILE: paths.dfy ===
/** The parts of Rust's `std::path::Path` the commands rely on, for Windows
    paths: `file_name` (the final component) and `extension`. Both `/` and
    `\` separate components, a leading `X:` is a drive prefix, `.` components
    are dropped and a trailing separator is ignored. */
module Paths {
  import opened Results

  predicate IsSeparator(c: char) {
    c == '/' || c == '\\'
  }

  predicate NoSeparator(s: string) {
    forall i :: 0 <= i < |s| ==> !IsSeparator(s[i])
  }

  /** A name that `Path::join` appends as one ordinary component. */
  predicate IsNormalName(name: string) {
    |name| > 0 && NoSeparator(name) && name != "." && name != ".."
  }

  predicate HasDrivePrefix(s: string) {
    |s| >= 2 && ('A' <= s[0] <= 'Z' || 'a' <= s[0] <= 'z') && s[1] == ':'
  }

  /** The characters after the last separator of s (all of s when it has none). */
  function LastSegment(s: string): (r: string)
    ensures |r| <= |s| && r == s[|s| - |r|..]
    ensures NoSeparator(r)
    ensures |r| < |s| ==> IsSeparator(s[|s| - |r| - 1])
    decreases |s|
  {
    if |s| == 0 || IsSeparator(s[|s| - 1]) then [] else LastSegment(s[..|s| - 1]) + [s[|s| - 1]]
  }

  /** The components of a path with its drive prefix removed, in order;
      empty and `.` components are skipped. */
  function Components(s: string): (r: seq<string>)
    ensures forall i :: 0 <= i < |r| ==> |r[i]| > 0 && NoSeparator(r[i]) && r[i] != "."
    decreases |s|
  {
    if |s| == 0 then []
    else
      var seg := LastSegment(s);
      var before := s[..|s| - |seg|];
      var earlier := if |before| == 0 then [] else Components(before[..|before| - 1]);
      if seg == "" || seg == "." then earlier else earlier + [seg]
  }

  function StripDrive(path: string): string {
    if HasDrivePrefix(path) then path[2..] else path
  }

  /** `Path::file_name(..).unwrap_or("")`: the last component when it is an
      ordinary name, otherwise the empty string (a bare root, a drive, `..`). */
  function FileName(path: string): (r: string)
    ensures NoSeparator(r) && r != "." && r != ".."
  {
    var cs := Components(StripDrive(path));
    if |cs| == 0 || cs[|cs| - 1] == ".." then "" else cs[|cs| - 1]
  }

  lemma {:induction false} LastSegmentAfterSeparator(dir: string, sep: char, name: string)
    requires IsSeparator(sep) && NoSeparator(name)
    ensures LastSegment(dir + [sep] + name) == name
    decreases |name|
  {
    var p := dir + [sep] + name;
    if |name| > 0 {
      assert p[..|p| - 1] == dir + [sep] + name[..|name| - 1];
      LastSegmentAfterSeparator(dir, sep, name[..|name| - 1]);
      assert name == name[..|name| - 1] + [name[|name| - 1]];
    }
  }

  lemma ComponentsAfterSeparator(q: string, sep: char, name: string)
    requires IsSeparator(sep) && |name| > 0 && NoSeparator(name) && name != "."
    ensures Components(q + [sep] + name) == Components(q) + [name]
  {
    var s := q + [sep] + name;
    LastSegmentAfterSeparator(q, sep, name);
    var before := s[..|s| - |name|];
    assert before == q + [sep];
    assert before[..|before| - 1] == q;
  }

  lemma StripDriveOfJoin(dir: string, sep: char, name: string)
    requires IsSeparator(sep)
    ensures StripDrive(dir + [sep] + name) == StripDrive(dir) + [sep] + name
  {
    var p := dir + [sep] + name;
    if |dir| >= 2 {
      assert p[0] == dir[0] && p[1] == dir[1];
      if HasDrivePrefix(dir) {
        assert p[2..] == dir[2..] + [sep] + name;
      }
    } else {
      assert p[|dir|] == sep;
    }
  }

  /** Joining a directory and an ordinary name and taking the file name gives
      the name back: the name of a listed entry is its directory entry name. */
  lemma FileNameOfJoin(dir: string, sep: char, name: string)
    requires IsSeparator(sep) && IsNormalName(name)
    ensures FileName(dir + [sep] + name) == name
  {
    StripDriveOfJoin(dir, sep, name);
    ComponentsAfterSeparator(StripDrive(dir), sep, name);
  }

  /** A name without separators is its own last segment. */
  lemma LastSegmentOfName(name: string)
    requires NoSeparator(name)
    ensures LastSegment(name) == name
  {
  }

  /** A bare ordinary name with no drive prefix is its own file name. */
  lemma FileNameOfName(name: string)
    requires IsNormalName(name) && !HasDrivePrefix(name)
    ensures FileName(name) == name
  {
    LastSegmentOfName(name);
    assert name[..0] == [];
  }

  /** A trailing separator is ignored: `dir\name\` has the file name of `dir\name`. */
  lemma FileNameTrailingSeparator(path: string, sep: char)
    requires IsSeparator(sep)
    ensures FileName(path + [sep]) == FileName(path)
  {
    StripDriveOfJoin(path, sep, "");
    assert path + [sep] + "" == path + [sep];
    assert StripDrive(path) + [sep] + "" == StripDrive(path) + [sep];
    ComponentsTrailingSeparator(StripDrive(path), sep);
  }

  lemma ComponentsTrailingSeparator(q: string, sep: char)
    requires IsSeparator(sep)
    ensures Components(q + [sep]) == Components(q)
  {
    var s := q + [sep];
    var seg := LastSegment(s);
    assert seg == [] by {
      assert IsSeparator(s[|s| - 1]);
    }
    var before := s[..|s| - |seg|];
    assert before == s;
    assert before[..|before| - 1] == q;
  }

  /** A path ending in `..` has no file name. */
  lemma FileNameOfParentRef(dir: string, sep: char)
    requires IsSeparator(sep)
    ensures FileName(dir + [sep] + "..") == ""
  {
    StripDriveOfJoin(dir, sep, "..");
    ComponentsAfterSeparator(StripDrive(dir), sep, "..");
  }

  /** A drive on its own, `X:` or `X:\`, has no file name. */
  lemma FileNameOfDriveRoot(letter: char, sep: char)
    requires 'A' <= letter <= 'Z' || 'a' <= letter <= 'z'
    requires IsSeparator(sep)
    ensures FileName([letter, ':']) == ""
    ensures FileName([letter, ':', sep]) == ""
  {
    assert [letter, ':', sep][2..] == [sep];
    assert LastSegment([sep]) == [];
    assert [sep][..0] == [];
  }

  /** Index of the last `.` in s, if any. */
  function LastDot(s: string): (r: Option<nat>)
    ensures r.Some? ==> r.value < |s| && s[r.value] == '.' && forall j :: r.value < j < |s| ==> s[j] != '.'
    ensures r.None? ==> forall j :: 0 <= j < |s| ==> s[j] != '.'
    decreases |s|
  {
    if |s| == 0 then None
    else if s[|s| - 1] == '.' then Some(|s| - 1)
    else LastDot(s[..|s| - 1])
  }

  /** `Path::extension(..).unwrap_or("")`: what follows the last dot of the
      file name; empty when there is no dot or the only dot leads the name. */
  function Extension(path: string): (r: string)
    ensures '.' !in r && NoSeparator(r)
  {
    var name := FileName(path);
    match LastDot(name)
    case None => ""
    case Some(i) => if i == 0 then "" else name[i + 1..]
  }

  /** A file name without a dot has no extension. */
  lemma ExtensionWithoutDot(path: string)
    requires '.' !in FileName(path)
    ensures Extension(path) == ""
  {
  }

  /** A dotfile such as `.bashrc`, whose only dot leads the name, has no
      extension. */
  lemma DotfileHasNoExtension(path: string)
    requires |FileName(path)| > 0 && FileName(path)[0] == '.' && '.' !in FileName(path)[1..]
    ensures Extension(path) == ""
  {
  }

  /** The last dot of `stem.ext` is the one before `ext` when `ext` has none. */
  lemma {:induction false} LastDotOfDotted(stem: string, ext: string)
    requires '.' !in ext
    ensures LastDot(stem + "." + ext) == Some(|stem|)
    decreases |ext|
  {
    var name := stem + "." + ext;
    if |ext| > 0 {
      var shorter := ext[..|ext| - 1];
      assert name[|name| - 1] == ext[|ext| - 1];
      assert name[..|name| - 1] == stem + "." + shorter;
      assert '.' !in shorter by {
        assert forall c :: c in shorter ==> c in ext;
      }
      LastDotOfDotted(stem, shorter);
    }
  }

  /** The extension of `dir\stem.ext` is `ext`. */
  lemma ExtensionOfJoin(dir: string, sep: char, stem: string, ext: string)
    requires IsSeparator(sep) && IsNormalName(stem + "." + ext)
    requires |stem| > 0 && '.' !in ext
    ensures Extension(dir + [sep] + stem + "." + ext) == ext
  {
    var name := stem + "." + ext;
    assert dir + [sep] + stem + "." + ext == dir + [sep] + name;
    FileNameOfJoin(dir, sep, name);
    LastDotOfDotted(stem, ext);
    assert name[|stem| + 1..] == ext;
  }
}

=== FILE: results.dfy ===
/** Failure-carrying values used throughout the model: `Option` for Rust's
    `Option<T>` and `Result` for `Result<T, String>`. */
module Results {

  datatype Option<+T> = None | Some(value: T)

  datatype Result<+T, +E> = Success(value: T) | Failure(error: E)
}

=== FILE: roots.dfy ===
/** `get_folder_roots` on Windows: the drive roots `A:\` to `Z:\` that are
    directories and can be listed, in letter order. The two probes of the
    file system are inputs. */
module Roots {
  import opened Results
  import opened Listing

  predicate IsDriveLetter(c: char) {
    'A' <= c <= 'Z'
  }

  /** The root of a drive, `<letter>:\`. */
  function DriveRoot(letter: char): string {
    [letter, ':', '\\']
  }

  function DriveEntry(letter: char): DirEntry {
    DirEntry(DriveRoot(letter), DriveRoot(letter), true)
  }

  /** The letter an entry produced by `DriveEntry` stands for. */
  function LetterOf(e: DirEntry): char
    requires |e.path| > 0
  {
    e.path[0]
  }

  /** Enumerates the letters in order, keeping a drive only when its root is
      a directory and reading it succeeds. */
  method GetFolderRoots(isDir: string -> bool, canRead: string -> bool) returns (r: ListDirResult)
    ensures r.ok && r.error.None? && r.entries.Some?
    ensures forall i :: 0 <= i < |r.entries.value| ==>
      && |r.entries.value[i].path| > 0
      && IsDriveLetter(LetterOf(r.entries.value[i]))
      && r.entries.value[i] == DriveEntry(LetterOf(r.entries.value[i]))
      && isDir(r.entries.value[i].path) && canRead(r.entries.value[i].path)
    ensures forall c :: IsDriveLetter(c) && isDir(DriveRoot(c)) && canRead(DriveRoot(c)) ==>
      DriveEntry(c) in r.entries.value
    ensures forall i, j :: 0 <= i < j < |r.entries.value| ==>
      LetterOf(r.entries.value[i]) < LetterOf(r.entries.value[j])
  {
    var entries: seq<DirEntry> := [];
    var code := 'A' as int;
    while code <= 'Z' as int
      invariant 'A' as int <= code <= 'Z' as int + 1
      invariant forall i :: 0 <= i < |entries| ==>
        && |entries[i].path| > 0
        && IsDriveLetter(LetterOf(entries[i]))
        && LetterOf(entries[i]) as int < code
        && entries[i] == DriveEntry(LetterOf(entries[i]))
        && isDir(entries[i].path) && canRead(entries[i].path)
      invariant forall c :: IsDriveLetter(c) && (c as int) < code && isDir(DriveRoot(c)) && canRead(DriveRoot(c)) ==>
        DriveEntry(c) in entries
      invariant forall i, j :: 0 <= i < j < |entries| ==> LetterOf(entries[i]) < LetterOf(entries[j])
    {
      var letter := code as char;
      var root := DriveRoot(letter);
      if isDir(root) {
        if canRead(root) {
          entries := entries + [DirEntry(root, root, true)];
        }
      }
      code := code + 1;
    }
    r := ListDirResult(true, Some(entries), None);
  }
}

=== FILE: text.dfy ===
/** String helpers shared by the model: ASCII case folding, substring search,
    lexicographic order on strings, and zero-padded decimal rendering. */
module Text {

  /* ---------- ASCII case folding ---------- */

  function LowerChar(c: char): char {
    if 'A' <= c <= 'Z' then (c as int + 32) as char else c
  }

  function UpperChar(c: char): char {
    if 'a' <= c <= 'z' then (c as int - 32) as char else c
  }

  /** ASCII-only stand-in for Rust's `str::to_lowercase`. */
  function Lower(s: string): string {
    seq(|s|, i requires 0 <= i < |s| => LowerChar(s[i]))
  }

  /** ASCII-only stand-in for Rust's `str::to_uppercase`. */
  function Upper(s: string): string {
    seq(|s|, i requires 0 <= i < |s| => UpperChar(s[i]))
  }

  predicate IsUpperFolded(s: string) {
    forall i :: 0 <= i < |s| ==> !('a' <= s[i] <= 'z')
  }

  lemma UpperIsFolded(s: string)
    ensures IsUpperFolded(Upper(s))
    ensures Upper(Upper(s)) == Upper(s)
  {
  }

  /** Upper leaves every non-letter character where it was. */
  lemma UpperKeepsOthers(s: string, c: char)
    requires !('a' <= c <= 'z') && !('A' <= c <= 'Z')
    ensures c in Upper(s) <==> c in s
  {
    if c in s {
      var i :| 0 <= i < |s| && s[i] == c;
      assert Upper(s)[i] == c;
    }
    if c in Upper(s) {
      var i :| 0 <= i < |Upper(s)| && Upper(s)[i] == c;
      assert s[i] == c;
    }
  }

  /* ---------- substring search ---------- */

  predicate IsPrefix(p: string, s: string) {
    |p| <= |s| && s[..|p|] == p
  }

  /** Rust's `str::contains` with a string pattern. */
  predicate Contains(s: string, sub: string)
    decreases |s|
  {
    IsPrefix(sub, s) || (|s| > 0 && Contains(s[1..], sub))
  }

  predicate OccursAt(s: string, sub: string, i: int) {
    0 <= i && i + |sub| <= |s| && s[i..i + |sub|] == sub
  }

  /** The recursive search agrees with "sub occurs at some position of s". */
  lemma {:induction false} ContainsIffOccurs(s: string, sub: string)
    ensures Contains(s, sub) <==> exists i :: OccursAt(s, sub, i)
    decreases |s|
  {
    if IsPrefix(sub, s) {
      assert OccursAt(s, sub, 0);
    } else if |s| > 0 {
      ContainsIffOccurs(s[1..], sub);
      if exists i :: OccursAt(s[1..], sub, i) {
        var i :| OccursAt(s[1..], sub, i);
        assert s[i + 1..i + 1 + |sub|] == s[1..][i..i + |sub|];
        assert OccursAt(s, sub, i + 1);
      }
      if exists i :: OccursAt(s, sub, i) {
        var i :| OccursAt(s, sub, i);
        assert i != 0;
        assert s[1..][i - 1..i - 1 + |sub|] == s[i..i + |sub|];
        assert OccursAt(s[1..], sub, i - 1);
      }
    }
  }

  /* ---------- lexicographic order ---------- */

  /** Rust's `Ord` on strings: lexicographic by character code, a proper
      prefix sorting first. */
  predicate LexLe(a: string, b: string)
    decreases |a|
  {
    |a| == 0 || (|b| > 0 && (a[0] < b[0] || (a[0] == b[0] && LexLe(a[1..], b[1..]))))
  }

  lemma {:induction false} LexLeReflexive(a: string)
    ensures LexLe(a, a)
    decreases |a|
  {
    if |a| > 0 {
      LexLeReflexive(a[1..]);
    }
  }

  lemma {:induction false} LexLeTotal(a: string, b: string)
    ensures LexLe(a, b) || LexLe(b, a)
    decreases |a|
  {
    if |a| > 0 && |b| > 0 && a[0] == b[0] {
      LexLeTotal(a[1..], b[1..]);
    }
  }

  lemma {:induction false} LexLeAntisymmetric(a: string, b: string)
    requires LexLe(a, b) && LexLe(b, a)
    ensures a == b
    decreases |a|
  {
    if |a| > 0 {
      LexLeAntisymmetric(a[1..], b[1..]);
      assert a == [a[0]] + a[1..];
      assert b == [b[0]] + b[1..];
    }
  }

  lemma {:induction false} LexLeTransitive(a: string, b: string, c: string)
    requires LexLe(a, b) && LexLe(b, c)
    ensures LexLe(a, c)
    decreases |a|
  {
    if |a| > 0 && a[0] == b[0] && b[0] == c[0] {
      LexLeTransitive(a[1..], b[1..], c[1..]);
    }
  }

  /* ---------- decimal rendering ---------- */

  predicate IsDigit(c: char) {
    '0' <= c <= '9'
  }

  predicate AllDigits(s: string) {
    forall i :: 0 <= i < |s| ==> IsDigit(s[i])
  }

  function DigitChar(d: nat): char
    requires d < 10
  {
    ('0' as int + d) as char
  }

  function DigitValue(c: char): nat {
    if IsDigit(c) then c as int - '0' as int else 0
  }

  /** The shortest decimal spelling of n (Rust's `{}` on an unsigned integer). */
  function Decimal(n: nat): (r: string)
    ensures 1 <= |r| && AllDigits(r)
    decreases n
  {
    if n < 10 then [DigitChar(n)] else Decimal(n / 10) + [DigitChar(n % 10)]
  }

  function Zeros(k: nat): (r: string)
    ensures |r| == k && forall i :: 0 <= i < k ==> r[i] == '0'
  {
    seq(k, _ => '0')
  }

  /** Rust's `{:0w}` on an unsigned integer: at least `width` characters,
      padded with leading zeros, never truncated. */
  function ZeroPad(n: nat, width: nat): string {
    var digits := Decimal(n);
    if |digits| >= width then digits else Zeros(width - |digits|) + digits
  }

  /** Reads a run of decimal digits back as a number. */
  function ParseDecimal(s: string): nat
    decreases |s|
  {
    if |s| == 0 then 0 else ParseDecimal(s[..|s| - 1]) * 10 + DigitValue(s[|s| - 1])
  }

  function Pow10(k: nat): (r: nat)
    ensures r >= 1
  {
    if k == 0 then 1 else 10 * Pow10(k - 1)
  }

  lemma {:induction false} ParseDecimalOfDecimal(n: nat)
    ensures ParseDecimal(Decimal(n)) == n
    decreases n
  {
    if n >= 10 {
      ParseDecimalOfDecimal(n / 10);
      var s := Decimal(n);
      assert s[..|s| - 1] == Decimal(n / 10);
    }
  }

  lemma {:induction false} ParseDecimalSkipsZeros(k: nat, s: string)
    ensures ParseDecimal(Zeros(k) + s) == ParseDecimal(s)
    decreases |s|, k
  {
    if |s| == 0 {
      assert Zeros(k) + s == Zeros(k);
      if k > 0 {
        assert Zeros(k)[..k - 1] == Zeros(k - 1) + [];
        ParseDecimalSkipsZeros(k - 1, []);
      }
    } else {
      var t := Zeros(k) + s;
      assert t[..|t| - 1] == Zeros(k) + s[..|s| - 1];
      ParseDecimalSkipsZeros(k, s[..|s| - 1]);
    }
  }

  /** Zero padding is read back as the padded number. */
  lemma ZeroPadRoundTrip(n: nat, width: nat)
    ensures ParseDecimal(ZeroPad(n, width)) == n
    ensures AllDigits(ZeroPad(n, width))
    ensures |ZeroPad(n, width)| >= width
  {
    ParseDecimalOfDecimal(n);
    var digits := Decimal(n);
    if |digits| < width {
      ParseDecimalSkipsZeros(width - |digits|, digits);
    }
  }

  lemma {:induction false} DecimalLength(n: nat, k: nat)
    requires 1 <= k && n < Pow10(k)
    ensures |Decimal(n)| <= k
    decreases k
  {
    if n >= 10 {
      DecimalLength(n / 10, k - 1);
    }
  }

  /** A number below 10^width pads to exactly `width` characters. */
  lemma ZeroPadLength(n: nat, width: nat)
    requires 1 <= width && n < Pow10(width)
    ensures |ZeroPad(n, width)| == width
  {
    DecimalLength(n, width);
  }
}

=== FILE: viewer.dfy ===
/** The viewer window's navigation context: the list of paths handed over by
    the browser and the index of the item on display. The mutex that guards
    it in the application is incidental; here the context is a value and each
    command maps the old context to the new one. */
module Viewer {
  import opened Results
  import Paths
  import opened Arith

  datatype ViewerContext = ViewerContext(paths: seq<string>, index: nat)

  /** What a navigation command hands back: the path now on display and its
      final component. */
  datatype Shown = Shown(path: string, name: string)

  datatype Nav = Nav(context: ViewerContext, shown: Option<Shown>)

  /** Every reachable context: the index points into a non-empty list and is
      0 for an empty one. */
  predicate Valid(ctx: ViewerContext) {
    if |ctx.paths| == 0 then ctx.index == 0 else ctx.index < |ctx.paths|
  }

  /** The context before any viewer has been opened. */
  function Default(): (ctx: ViewerContext)
    ensures Valid(ctx) && |ctx.paths| == 0
  {
    ViewerContext([], 0)
  }

  function Min(a: nat, b: nat): nat {
    if a <= b then a else b
  }

  /** `usize::saturating_sub`. */
  function SaturatingSub(a: nat, b: nat): nat {
    if a >= b then a - b else 0
  }

  /** The context installed by `open_viewer_window`: the new list replaces the
      old one and the start index is clamped into it. */
  function Open(paths: seq<string>, startIndex: nat): (ctx: ViewerContext)
    ensures Valid(ctx)
    ensures ctx.paths == paths
    ensures startIndex < |paths| ==> ctx.index == startIndex
    ensures |paths| > 0 && startIndex >= |paths| ==> ctx.index == |paths| - 1
  {
    var index := if |paths| == 0 then 0 else Min(startIndex, SaturatingSub(|paths|, 1));
    ViewerContext(paths, index)
  }

  /** `get_viewer_context`: the paths and index, as a pair. Opening a viewer
      with what was read gives back the same context: a snapshot loses
      nothing. */
  function GetContext(ctx: ViewerContext): (r: (seq<string>, nat))
    ensures r.0 == ctx.paths && r.1 == ctx.index
    ensures Valid(ctx) ==> Open(r.0, r.1) == ctx
  {
    (ctx.paths, ctx.index)
  }

  function ShowAt(ctx: ViewerContext): Shown
    requires ctx.index < |ctx.paths|
  {
    var path := ctx.paths[ctx.index];
    Shown(path, Paths.FileName(path))
  }

  /** The index move of `viewer_prev`: one item back, from the first to the
      last. The application indexes the list after the move, so an index
      beyond the end of a non-empty list would abort it; such a context is
      never reached (every reachable context is `Valid`). */
  function StepBack(ctx: ViewerContext): (r: ViewerContext)
    requires |ctx.paths| == 0 || ctx.index <= |ctx.paths|
    ensures r.paths == ctx.paths
    ensures |ctx.paths| == 0 ==> r == ctx
    ensures |ctx.paths| > 0 ==>
      && r.index < |ctx.paths|
      && (ctx.index == 0 ==> r.index == |ctx.paths| - 1)
      && (ctx.index > 0 ==> r.index == ctx.index - 1)
    ensures Valid(ctx) ==> Valid(r)
  {
    if |ctx.paths| == 0 then ctx else ctx.(index := Predecessor(ctx.index, |ctx.paths|))
  }

  /** The index move of `viewer_next`: one item forward, from the last to
      the first. */
  function StepForward(ctx: ViewerContext): (r: ViewerContext)
    ensures r.paths == ctx.paths
    ensures |ctx.paths| == 0 ==> r == ctx
    ensures |ctx.paths| > 0 ==>
      && r.index < |ctx.paths|
      && (ctx.index + 1 < |ctx.paths| ==> r.index == ctx.index + 1)
      && (ctx.index + 1 == |ctx.paths| ==> r.index == 0)
    ensures Valid(ctx) ==> Valid(r)
  {
    if |ctx.paths| == 0 then ctx else ctx.(index := Successor(ctx.index, |ctx.paths|))
  }

  /** `viewer_prev`: nothing on an empty list; otherwise move back and hand
      over the path now on display with its file name. */
  function Prev(ctx: ViewerContext): (r: Nav)
    requires |ctx.paths| == 0 || ctx.index <= |ctx.paths|
    ensures r.context == StepBack(ctx)
    ensures |ctx.paths| == 0 <==> r.shown.None?
    ensures r.shown.Some? ==> r.shown.value.path == ctx.paths[r.context.index]
    ensures r.shown.Some? ==> r.shown.value.name == Paths.FileName(r.shown.value.path)
  {
    if |ctx.paths| == 0 then Nav(ctx, None)
    else
      var next := StepBack(ctx);
      Nav(next, Some(ShowAt(next)))
  }

  /** `viewer_next`: nothing on an empty list; otherwise move forward and
      hand over the path now on display with its file name. */
  function Next(ctx: ViewerContext): (r: Nav)
    ensures r.context == StepForward(ctx)
    ensures |ctx.paths| == 0 <==> r.shown.None?
    ensures r.shown.Some? ==> r.shown.value.path == ctx.paths[r.context.index]
    ensures r.shown.Some? ==> r.shown.value.name == Paths.FileName(r.shown.value.path)
  {
    if |ctx.paths| == 0 then Nav(ctx, None)
    else
      var next := StepForward(ctx);
      Nav(next, Some(ShowAt(next)))
  }

  /** Forward then back returns to the same context. */
  lemma NextThenPrev(ctx: ViewerContext)
    requires Valid(ctx)
    ensures StepBack(StepForward(ctx)) == ctx
  {
  }

  /** Back then forward returns to the same context. */
  lemma PrevThenNext(ctx: ViewerContext)
    requires Valid(ctx)
    ensures StepForward(StepBack(ctx)) == ctx
  {
  }

  /** k presses of "next". */
  function NextTimes(ctx: ViewerContext, k: nat): (r: ViewerContext)
    decreases k
  {
    if k == 0 then ctx else StepForward(NextTimes(ctx, k - 1))
  }

  /** k presses of "previous". */
  function PrevTimes(ctx: ViewerContext, k: nat): (r: ViewerContext)
    requires Valid(ctx)
    ensures Valid(r)
    decreases k
  {
    if k == 0 then ctx else StepBack(PrevTimes(ctx, k - 1))
  }

  /* ---------- wrap-around ---------- */

  /** One step of (i + 1) % n from an index in range. */
  lemma WrapForward(i: nat, n: nat)
    requires n > 0
    ensures 0 <= (i + 1) % n < n
    ensures i + 1 < n ==> (i + 1) % n == i + 1
    ensures i + 1 == n ==> (i + 1) % n == 0
  {
    if i + 1 < n {
      ModUnique(i + 1, n, 0, i + 1);
    } else if i + 1 == n {
      ModUnique(n, n, 1, 0);
    }
  }

  /** `(i + 1) % n`, the next index with wrap-around, as `viewer_next`
      computes it. */
  function Successor(i: nat, n: nat): (r: nat)
    requires n > 0
    ensures r < n
    ensures i + 1 < n ==> r == i + 1
    ensures i + 1 == n ==> r == 0
  {
    WrapForward(i, n);
    (i + 1) % n
  }

  /** The previous index with wrap-around, as `viewer_prev` computes it. */
  function Predecessor(i: nat, n: nat): (r: nat)
    requires n > 0
  {
    if i == 0 then n - 1 else i - 1
  }

  /** a reduced into [0, n) by repeatedly adding or subtracting n; it equals
      a % n (see `WrapIsMod`) but keeps the navigation proofs free of
      non-linear arithmetic. */
  function Wrap(a: int, n: nat): (r: nat)
    requires n > 0
    ensures r < n
    decreases a < 0, if a < 0 then -a else a
  {
    if a < 0 then Wrap(a + n, n) else if a < n then a else Wrap(a - n, n)
  }

  lemma {:induction false} WrapIsMod(a: int, n: nat)
    requires n > 0
    ensures Wrap(a, n) == a % n
    decreases a < 0, if a < 0 then -a else a
  {
    if a < 0 {
      WrapIsMod(a + n, n);
      ModShift(a, n);
    } else if a < n {
      ModUnique(a, n, 0, a);
    } else {
      WrapIsMod(a - n, n);
      ModShift(a - n, n);
    }
  }

  lemma {:induction false} WrapForwardStep(a: int, n: nat)
    requires n > 0
    ensures Wrap(a + 1, n) == Successor(Wrap(a, n), n)
    decreases a < 0, if a < 0 then -a else a
  {
    if a < 0 {
      if a + 1 < 0 {
        WrapForwardStep(a + n, n);
      }
    } else if a >= n {
      WrapForwardStep(a - n, n);
    }
  }

  lemma {:induction false} WrapBackwardStep(a: int, n: nat)
    requires n > 0
    ensures Wrap(a - 1, n) == Predecessor(Wrap(a, n), n)
    decreases a < 0, if a < 0 then -a else a
  {
    if a < 0 {
      WrapBackwardStep(a + n, n);
    } else if a >= n {
      if a - 1 >= n {
        WrapBackwardStep(a - n, n);
      }
    }
  }

  /** After k presses of "next" the index has advanced by k with
      wrap-around, and the list is untouched. */
  lemma {:induction false} NextTimesIndex(ctx: ViewerContext, k: nat)
    requires Valid(ctx) && |ctx.paths| > 0
    ensures NextTimes(ctx, k).paths == ctx.paths
    ensures NextTimes(ctx, k).index == Wrap(ctx.index + k, |ctx.paths|)
    decreases k
  {
    if k > 0 {
      NextTimesIndex(ctx, k - 1);
      WrapForwardStep(ctx.index + (k - 1), |ctx.paths|);
    }
  }

  /** After k presses of "previous" the index has moved back by k with
      wrap-around, and the list is untouched. */
  lemma {:induction false} PrevTimesIndex(ctx: ViewerContext, k: nat)
    requires Valid(ctx) && |ctx.paths| > 0
    ensures PrevTimes(ctx, k).paths == ctx.paths
    ensures PrevTimes(ctx, k).index == Wrap(ctx.index - k, |ctx.paths|)
    decreases k
  {
    if k > 0 {
      PrevTimesIndex(ctx, k - 1);
      WrapBackwardStep(ctx.index - (k - 1), |ctx.paths|);
    }
  }

  /** The same fact with the remainder operator the application uses. */
  lemma NextTimesIsModulo(ctx: ViewerContext, k: nat)
    requires Valid(ctx) && |ctx.paths| > 0
    ensures NextTimes(ctx, k).index == (ctx.index + k) % |ctx.paths|
  {
    NextTimesIndex(ctx, k);
    WrapIsMod(ctx.index + k, |ctx.paths|);
  }

  /** The same fact with the (Euclidean) remainder. */
  lemma PrevTimesIsModulo(ctx: ViewerContext, k: nat)
    requires Valid(ctx) && |ctx.paths| > 0
    ensures PrevTimes(ctx, k).index == (ctx.index - k) % |ctx.paths|
  {
    PrevTimesIndex(ctx, k);
    WrapIsMod(ctx.index - k, |ctx.paths|);
  }

  /** Pressing "next" once per item comes back to the starting item. */
  lemma NextFullCycle(ctx: ViewerContext)
    requires Valid(ctx)
    ensures NextTimes(ctx, |ctx.paths|) == ctx
  {
    if |ctx.paths| > 0 {
      NextTimesIndex(ctx, |ctx.paths|);
    }
  }

  /** Pressing "previous" once per item comes back to the starting item. */
  lemma PrevFullCycle(ctx: ViewerContext)
    requires Valid(ctx)
    ensures PrevTimes(ctx, |ctx.paths|) == ctx
  {
    if |ctx.paths| > 0 {
      PrevTimesIndex(ctx, |ctx.paths|);
    }
  }
}
